=== FILE: README.md ===
# Bitbucket PR to RCA extension, modelled in Dafny

This project models the pull-request-to-RCA pipeline of a browser extension. The user pastes a Bitbucket pull-request URL into the popup, and the extension does the following:

- the background service worker validates the URL;
- it reads the stored Gemini key and Atlassian credentials;
- it fetches the pull request's details and diff from the Bitbucket REST API;
- it fills a fixed prompt template with the list of changed files and the truncated diff;
- it asks Gemini for a root cause analysis and answers with the trimmed text and a short summary of the pull request;
- the popup keeps a chat history capped at its 50 most recent entries in extension storage, and the settings page saves, tests and clears the credentials.

One module per source file:

| module | file | what it holds |
|---|---|---|
| `Js` | (shared) | `undefined` as `Option`, thrown errors as `Result`, truthiness, `String(x)` |
| `Text` | (shared) | the JavaScript string built-ins the code relies on: `trim`, `split`/`join`, first-occurrence `replace` with `$`-pattern expansion, decimal rendering |
| `Config` | `config.js` | storage keys, the history cap, the prompt template |
| `PrUrl` | `utils/bitbucket.js` | the pull-request URL pattern, written out as a matcher with a reference predicate |
| `DiffFiles` | `utils/bitbucket.js` | `extractFilesFromDiff`, including the regular expression's leftmost-greedy semantics |
| `Http` | (shared) | requests, replies and headers as data |
| `Bitbucket` | `utils/bitbucket.js` | the two fetches, their error messages, and `fetchPRData` |
| `RcaGenerator` | `utils/rca-generator.js` | truncation, the prompt builder, the Gemini call, `formatRCA` |
| `Storage` | `utils/storage.js` | the store as a map, the accessors, the capped history |
| `Background` | `background.js` | the two message handlers and the `onMessage` wrapping |
| `Popup` | `popup.js` | the chat panel as a state machine |
| `Settings` | `settings.js` | the settings page as a state machine |

Parameters stand in for the outside world:

- The network is a function from request to reply (`Server`, `Gemini`).
- Each handler returns the requests it sends and the storage reads it makes, in order.
- Clock readings and `toLocaleString` are parameters.
- The order in which the two parallel fetches settle is a boolean.

The prompt template in `config.js` holds only the `{{files}}` and `{{diff}}` placeholders. The other five placeholders that `generateRCA` replaces (`{{title}}`, `{{description}}`, `{{author}}`, `{{created}}`, `{{fix_url}}`) do not occur in it. As a result, the model proves that the title, description, author, date and URL never reach the prompt (`RcaGenerator.MetadataNeverReachesPrompt`, `RcaGenerator.PromptDependsOnlyOnDiffAndUrl`).

## Model

| member | source | states |
|---|---|---|
| Js.OrElse | utils/bitbucket.js:127-128 | `s \|\| fallback` on an optional string: the string when it is defined and non-empty, the fallback otherwise |
| Js.Stringify | utils/rca-generator.js:23 | an undefined value interpolated into text reads `undefined`; a defined one reads as itself |
| Text.IndexOf | utils/rca-generator.js:23-29 | the index found is an occurrence at or after `from` with none before it; no index means no occurrence at or after `from` |
| Text.ReplaceFirst | utils/rca-generator.js:23-29 | literal replacement of the first occurrence: the text is unchanged when the pattern is absent, otherwise the part before the first occurrence, the replacement, and the part after it |
| Text.ReplaceFirstJs | utils/rca-generator.js:23-29 | `String.prototype.replace` with a string pattern: the first occurrence is replaced by the replacement with its `$` patterns expanded against the match and its surroundings |
| Text.ReplaceFirstJsLiteral | utils/rca-generator.js:23-29 | when the replacement holds no `$`, JavaScript's `replace` agrees with literal replacement |
| Text.ReplaceByMatchIsIdentity | utils/rca-generator.js:28 | replacing the first occurrence of a pattern by `$&` leaves the text unchanged |
| Text.FirstIsUnique | utils/rca-generator.js:23-29 | a pattern has at most one first occurrence |
| Text.JoinSplit | utils/bitbucket.js:149 | joining the pieces of `split(sep)` with `sep` gives back the text |
| Text.SplitJoin | utils/rca-generator.js:18 | splitting a join of separator-free pieces gives back the pieces |
| Text.SplitAppend | utils/bitbucket.js:149 | splitting two texts joined by the separator gives the pieces of each, in order |
| Text.SplitPiecesFree | utils/bitbucket.js:149 | no piece of a split holds the separator |
| Text.Trim | utils/rca-generator.js:112 | `trim()`: the result has no white space at either end, and the input is that result surrounded by white space only |
| Text.TrimUnique | utils/rca-generator.js:112 | any white-space-free-ended core, surrounded by white space only, is what `trim()` returns |
| Text.TrimIdempotent | utils/rca-generator.js:112 | trimming twice is trimming once |
| Text.Decimal | utils/bitbucket.js:59 | the status rendered in an error message is a non-empty run of decimal digits |
| Text.DecimalRoundTrip | utils/rca-generator.js:70 | reading the rendered digits back gives the status |
| Config.StorageKeysDistinct | config.js:10-16 | the five storage keys are pairwise distinct |
| Config.TemplatePlaceholders | config.js:26-60 | `{{files}}` and `{{diff}}` each occur in the template at exactly one position; `{{title}}`, `{{description}}`, `{{author}}`, `{{created}}` and `{{fix_url}}` occur nowhere |
| Config.FilesOnce | config.js:47 | in a template made of brace-free prose around the two placeholders, `{{files}}` occurs at exactly one position |
| Config.DiffOnce | config.js:59 | likewise for `{{diff}}` |
| Config.OthersAbsent | config.js:26-60 | in such a template the five metadata placeholders occur nowhere |
| Config.PlaceholderPositions | config.js:26-60 | in such a template, a pattern opening with two braces can only occur where one of the two placeholders starts |
| PrUrl.ParsePrUrl | utils/bitbucket.js:8-20 | a parse succeeds only when the URL starts with the `https?://bitbucket.org/` lead-in, and keeps the URL as given |
| PrUrl.ParseSoundComplete | utils/bitbucket.js:8-20 | the parse returns a workspace, repository and id exactly when the pattern (anchored at the start only, segments without `/`, a greedy digit run) matches the URL with those captures |
| PrUrl.IsValidPrUrl | utils/bitbucket.js:27-29 | the validity test agrees with the parse |
| PrUrl.ValidIffMatches | utils/bitbucket.js:27-29 | a URL is valid exactly when some workspace, repository and id make the pattern match it |
| PrUrl.MatchUnique | config.js:19 | a URL matches the pattern in at most one way |
| PrUrl.ParseExtension | config.js:19 | the pattern has no end anchor: text appended to a valid URL keeps it valid with the same workspace and repository, and keeps the id unless the appended text starts with a digit |
| PrUrl.ParseExample | popup.js:91 | the example URL of the invalid-URL message, `https://bitbucket.org/workspace/repo/pull-requests/123`, parses into `workspace`, `repo`, `123` |
| DiffFiles.HeaderMatchIsLeftmostGreedy | utils/bitbucket.js:153 | the regular expression's match is the leftmost one, with the longest first capture and then the longest second capture |
| DiffFiles.WellFormedHeader | utils/bitbucket.js:153-155 | on a `diff --git a/X b/Y` line whose Y has no ` b/`, the captured path is Y |
| DiffFiles.CarriageReturnNotCaptured | utils/bitbucket.js:149-155 | a header ending in a carriage return (CRLF diffs) still captures Y without the `\r`, since `.` stops at line terminators |
| DiffFiles.LineEntry | utils/bitbucket.js:152-156 | a line contributes at most one path, and contributes one exactly when it starts with `diff --git` and the expression matches it |
| DiffFiles.ExtractFiles | utils/bitbucket.js:147-161 | no more paths than header lines |
| DiffFiles.ExtractFilesAppend | utils/bitbucket.js:147-161 | the paths of two diffs joined by a newline are the paths of each, in order |
| DiffFiles.ExtractFilesLine | utils/bitbucket.js:147-161 | a one-line diff yields that line's entry |
| DiffFiles.NoHeaderNoFiles | utils/bitbucket.js:152 | a diff without `diff --git` lines yields no paths |
| DiffFiles.CollectBound | utils/bitbucket.js:150-158 | the paths collected from a list of lines are no more than its header lines |
| Http.HeaderNamed | utils/bitbucket.js:42-50 | a header lookup finds a value exactly when a header of that name is present, and the value found is that header's |
| Bitbucket.AuthHeaders | utils/bitbucket.js:42-50 | `Accept` comes first; an `Authorization: Basic` header built from email and token is present exactly when both are set |
| Bitbucket.FailureMessage | utils/bitbucket.js:54-63 | a non-OK reply's message starts with `Failed to fetch PR <what>: <status>`; the next character is `.` exactly for a 401 or 403 without both credentials, and then the message is exactly `. This might be a private repository. Please configure your Atlassian email and API token in settings.` after the status; otherwise the server's error text follows a space |
| Bitbucket.CredentialsSuppressHint | utils/bitbucket.js:58-62 | with both credentials set, a 401 or 403 gets the generic message carrying the server's text |
| Bitbucket.ErrorText | utils/bitbucket.js:55 | the error text is the body when it can be read, the status text otherwise |
| Bitbucket.Checked | utils/bitbucket.js:52-63 | a reply passes exactly when it arrived with a 2xx status; a network failure rethrows its message; a non-OK reply gets the failure message |
| Bitbucket.FetchDetails | utils/bitbucket.js:38-66 | the details are the parsed JSON of an OK reply to the details request; a network failure rethrows its message, a non-OK reply fails with the `details` failure message (the private-repository hint or the server's text), and an unparseable body fails with the parse error |
| Bitbucket.FetchDiff | utils/bitbucket.js:75-103 | the diff is the text of an OK reply to the `/diff` request; a network failure rethrows its message, a non-OK reply fails with the `diff` failure message, and an unreadable body fails with the read error |
| Bitbucket.Record | utils/bitbucket.js:125-135 | a missing description reads `No description provided`, a missing author `Unknown`; title, diff and URL pass through |
| Bitbucket.FetchPrData | utils/bitbucket.js:112-140 | an unparsable URL fails with `Invalid Bitbucket PR URL` before any request; otherwise both requests are sent, the record is built exactly when both fetches succeed, and a failure carries the message of a fetch that failed (the one that settles first when both fail) |
| RcaGenerator.TruncateDiff | utils/rca-generator.js:96-103 | a diff within the limit is unchanged; a longer one is cut to the limit and followed by the truncation note; the result starts with the kept part |
| RcaGenerator.TruncateIdempotent | utils/rca-generator.js:96-103 | truncating twice with the same limit is truncating once |
| RcaGenerator.FormatRca | utils/rca-generator.js:110-113 | the analysis is a stretch of the raw text with only white space before and after it, so its interior is kept; it has no white space at either end and is a fixed point of trimming |
| RcaGenerator.FilesSection | utils/rca-generator.js:16-19 | the files text is `No files changed` exactly when there are no files |
| RcaGenerator.FilesSectionLines | utils/rca-generator.js:18 | for paths without line breaks, the files text reads back line by line as `- <path>` for each path, in order |
| RcaGenerator.FilesText | utils/rca-generator.js:16-19 | for the files extracted from a diff: `No files changed` exactly when none were found, otherwise one bullet line per path |
| RcaGenerator.CollectedPathsAreSingleLines | utils/bitbucket.js:150-158 | no extracted path holds a line break |
| RcaGenerator.MetadataNeverReachesPrompt | utils/rca-generator.js:22-29 | on a template made of brace-free prose around `{{files}}` and `{{diff}}`, the title, description, author and date replacements change nothing |
| RcaGenerator.PromptDependsOnlyOnDiffAndUrl | utils/rca-generator.js:22-29 | two records with the same diff give the same prompt, whatever their title, description, author or date |
| RcaGenerator.PromptIgnoresUrl | utils/rca-generator.js:29 | the `{{fix_url}}` replacement finds nothing, so the prompt does not depend on the URL |
| RcaGenerator.FilesStep | utils/rca-generator.js:27 | the `{{files}}` replacement puts the files text into the files slot and leaves the rest of the template intact |
| RcaGenerator.DiffStep | utils/rca-generator.js:28 | when the files text holds no `{{diff}}`, the diff replacement fills the diff slot and nothing else |
| RcaGenerator.PromptShape | utils/rca-generator.js:22-29 | when neither the files text nor the truncated diff holds `{{`, the prompt is the template with the files text and the truncated diff in their two slots |
| RcaGenerator.BuildPrompt | utils/rca-generator.js:22-29 | the extension's prompt is its template's head, the files text, the middle section, the truncated diff and the tail, when neither inserted text holds `{{` |
| RcaGenerator.AsWrittenAgrees | utils/rca-generator.js:22-29 | when the files text, truncated diff and URL hold no `$`, JavaScript's `replace` chain yields the same prompt as literal replacement |
| RcaGenerator.BuildPromptAsWritten | utils/rca-generator.js:22-29 | the code's prompt equals the literal-replacement prompt whenever no inserted text holds `$` |
| RcaGenerator.DollarChains | utils/rca-generator.js:28 | for the diff `$&`, the code's prompt keeps `{{diff}}` in the diff slot, while literal replacement puts `$&` there |
| RcaGenerator.DollarDiffKeepsPlaceholder | utils/rca-generator.js:28 | the same two prompts for the extension's own template |
| RcaGenerator.DollarDiffChangesPrompt | utils/rca-generator.js:28 | the code's prompt and the literal-replacement prompt differ for the diff `$&` |
| RcaGenerator.FirstTextOfAnswer | utils/rca-generator.js:76-80 | the text extracted from an OK body is the first part of the first candidate, whatever follows it |
| RcaGenerator.ApiErrorDetail | utils/rca-generator.js:69-70 | the error detail is the body's `error.message` when the body parses and the message is non-empty, the status text otherwise |
| RcaGenerator.CallGemini | utils/rca-generator.js:42-88 | a call succeeds only on an OK reply whose body parses and has a first part; its answer is that part's text; an OK body without candidates or parts fails with `No response generated from Gemini API`; a non-OK reply fails with `Gemini API error: <status> - <detail>`; a network failure rethrows its message |
| RcaGenerator.ApiErrorNamesStatus | utils/rca-generator.js:70 | the status can be read back from a non-OK reply's error message |
| RcaGenerator.GenerateRca | utils/rca-generator.js:10-34 | a missing key fails with `Gemini API key is required` and sends nothing; otherwise exactly one Gemini request goes out with the key, and the outcome is that call's outcome on the same prompt |
| RcaGenerator.GeneratedPrompt | utils/rca-generator.js:16-31 | the prompt sent is the extension's template with the files text and the truncated diff inserted literally in their slots, when neither holds `{{` |
| RcaGenerator.GenerateRcaAgreesWithCode | utils/rca-generator.js:16-31 | when the files text, truncated diff and URL hold no `$`, the prompt sent is the one the code's `replace` chain builds |
| Storage.Get | utils/storage.js:26-36 | a read yields the stored value exactly when the key is present |
| Storage.Save | utils/storage.js:9-19 | after a save the key reads back as the value and every other key reads as before |
| Storage.Remove | utils/storage.js:43-53 | after a remove the key reads as absent and every other key reads as before |
| Storage.SaveOverwrites | utils/storage.js:9-19 | saving the same key twice keeps only the second value |
| Storage.RemoveUndoesSave | utils/storage.js:9-53 | removing a key just saved leaves the store as if it had only been removed |
| Storage.GetText | utils/storage.js:68-103 | a credential reads as a string exactly when a string is stored under its key |
| Storage.LastN | utils/storage.js:112 | `slice(-n)` keeps the last `n` entries, or all of them when there are fewer or when `n` is 0 (`slice(-0)` is `slice(0)`) |
| Storage.GetChatHistory | utils/storage.js:120-123 | an absent history reads as empty; a non-empty one is the stored one |
| Storage.SaveGeminiApiKey | utils/storage.js:60-62 | only the API key changes |
| Storage.SaveBitbucketEmail | utils/storage.js:76-78 | only the email changes |
| Storage.SaveBitbucketToken | utils/storage.js:93-95 | only the token changes |
| Storage.RemoveBitbucketEmail | utils/storage.js:43-53 | only the email becomes absent |
| Storage.RemoveBitbucketToken | utils/storage.js:43-53 | only the token becomes absent |
| Storage.SaveChatHistory | utils/storage.js:110-114 | the stored history is the last 50 entries of the one given, the credentials are untouched, and the stored history never exceeds the cap |
| Storage.ClearChatHistory | utils/storage.js:129-131 | the history reads back empty; the credentials are untouched |
| Storage.ShortHistoryKept | utils/storage.js:110-114 | a history within the cap is stored whole |
| Storage.LastNAppend | utils/storage.js:112 | capping before appending and capping after give the same entries |
| Storage.LastNIdempotent | utils/storage.js:112 | capping twice is capping once |
| Background.Package | background.js:58-65 | a missing answer text fails like `undefined.trim()`; otherwise the trimmed analysis is packaged with the record's title, author and URL |
| Background.Analyse | background.js:56-65 | after a fetch, the trace is Gemini's requests; generation errors pass through unchanged; success needs an answer text |
| Background.HandleGenerateRca | background.js:32-70 | an invalid URL fails with nothing read or sent; a missing key fails after one read and before any request; otherwise the three credentials are read and the fetcher's requests sent, and a fetch failure ends there with its message |
| Background.AfterKey | background.js:46-65 | once the key is known: the credential reads, the fetch requests, then (after a successful fetch) the generator's requests and the packaged analysis |
| Background.AnswerDescribesFetchedRecord | background.js:52-65 | a successful answer comes from a successful fetch, its analysis has no surrounding white space, and its summary is the record's title, author and URL |
| Background.AnswerKeepsUrl | background.js:58-65 | the URL in a successful answer is the URL asked about |
| Background.FetcherInvalidUrlUnreachable | background.js:35-52 | the fetcher's own invalid-URL failure is unreachable from the handler: it always issues both requests |
| Background.GenerateTrace | background.js:32-70 | a full run reads the three credentials, sends the fetcher's requests, then the generator's |
| Background.GenerateTraceLength | background.js:32-70 | a full run reads three keys and sends three requests |
| Background.HandleValidateApiKey | background.js:77-85 | one request with the test prompt; `true` whenever the call does not fail; a failure is rethrown behind `Invalid API key or API error: ` |
| Background.Wrap | background.js:11-25 | a success becomes `{success: true, data}` and a failure `{success: false, error}` carrying its message |
| Background.WrapRoundTrip | background.js:11-25 | the outcome can be read back from the wrapped answer |
| Background.OnMessage | background.js:11-25 | `generateRCA` and `validateApiKey` are answered with their handler's wrapped outcome and trace; any other message gets no answer |
| Popup.ShowMessage | popup.js:165-173 | exactly one entry is appended, the store holds the last 50 entries, and nothing else changes |
| Popup.ShowMessageFromStored | popup.js:165-173 | for a synced popup, the newly stored history depends only on the previously stored one |
| Popup.ShowError | popup.js:258-260 | the history grows by exactly one assistant entry marked as an error; the store stays synced; the pending flag, input and credentials are unchanged |
| Popup.FormatRcaMessage | popup.js:148-160 | the message starts with the analysis, followed by the footer lines, each ended by a line break |
| Popup.FooterSplits | popup.js:148-160 | when title, URL and author hold no line break, the footer reads back as its lines |
| Popup.Received | popup.js:118-131 | a missing answer is no reply; a wrapped outcome reads back as itself |
| Popup.Outcome | popup.js:122-135 | the entry is an error exactly when the request did not succeed, and is never empty; a success starts with the analysis; a failure answer shows its error or the fallback text; a missing reply or a rejected send shows `An error occurred: ` followed by the message |
| Popup.ShownOutcome | popup.js:118-135 | for the background's wrapped answer, the popup shows the formatted analysis on success and the handler's error (or the fallback) on failure |
| Popup.SendUrl | popup.js:82-121 | empty input or a pending request changes nothing; an invalid URL adds one error entry and sends nothing; a valid one clears the input, records the user's entry, marks the popup as processing and sends one request |
| Popup.Settle | popup.js:122-141 | the outcome is appended as one entry, processing ends, the input is kept, the store stays synced and the credentials untouched |
| Popup.HandleSendMessage | popup.js:82-143 | empty input or a pending request changes nothing; an invalid URL adds one error entry and sends nothing; a valid one clears the input, records the user's entry, sends one request and records the outcome; processing ends false; the stored history stays synced and the credentials untouched |
| Popup.ProcessingBlocksSend | popup.js:83-87 | while the request just sent is pending, every further send is ignored, whatever the input holds |
| Popup.ClearDuringRequest | popup.js:306-312 | clearing while a request is pending empties the history, and the settled outcome becomes the only entry in memory and in the store |
| Popup.SentUrlIsValid | popup.js:83-121 | every URL sent is the trimmed input and passes validation |
| Popup.LoadChatHistory | popup.js:56-77 | the in-memory history becomes the stored one |
| Popup.LoadedIsSynced | popup.js:56-77 | a history loaded from a store within the cap is synced |
| Popup.SavedHistoryIsCapped | popup.js:165-173 | whatever the popup saves, the stored history stays within the cap |
| Popup.CheckApiKeyStatus | popup.js:43-51 | without a key, one setup reminder marked as an error is appended; with a key nothing changes |
| Popup.HandleClearHistory | popup.js:306-312 | when confirmed, the history is emptied in memory and in the store; declining changes nothing; credentials are untouched |
| Settings.LoadSettings | settings.js:10-43 | each stored credential that is set fills its field; Gemini shows configured exactly when the key is set, Bitbucket exactly when both email and token are |
| Settings.HandleSaveGemini | settings.js:58-74 | a blank key alerts and writes nothing; otherwise only the trimmed key is stored |
| Settings.SavedKeyLoads | settings.js:10-74 | a saved key is what the next load shows, as configured |
| Settings.HandleTestGemini | settings.js:79-106 | a blank key sends nothing; otherwise one test request goes out, the status follows its outcome, and the store is not written |
| Settings.TestAgreesWithValidate | settings.js:79-106 | the settings page's test and the background's validation send the same request and agree on the key |
| Settings.HandleSaveBitbucket | settings.js:111-129 | both trimmed credentials are saved when both are non-blank, and neither otherwise |
| Settings.HandleClearBitbucket | settings.js:134-146 | email and token are removed and their fields emptied; the key and the history are untouched |
| Settings.BitbucketStatusSurvivesReload | settings.js:10-146 | the status the handlers set is the one the next load computes |

## Left out

- Strings are sequences of Unicode scalar values, not UTF-16 code units. Lengths, the 8000-character cut and `slice` positions agree only for text without surrogate pairs.
- `btoa` is an uninterpreted `Basic(email, token)` header value. Base64 and its failure on non-Latin-1 input are not modelled.
- `chrome.storage` errors (`chrome.runtime.lastError`) are not modelled: every save, get and remove succeeds.
- A stored history that is not an array is not modelled.
- Logging (`console.log`/`console.error`) and the rethrowing `catch` blocks that only log are not modelled, since they do not change outcomes.
- DOM rendering is not modelled: markdown-to-HTML conversion, `escapeHtml`, the typing indicator, button enabling, scrolling and the settings page's visibility toggles. A shown message is its history entry.
- Gemini's floating-point settings (`temperature`, `topP`) are not modelled. The request carries only the integer `topK` and `maxOutputTokens`.
- JSON bodies are records of optional fields. A field of the wrong JSON type is not modelled.
- `Date.now()` and `toLocaleString` are parameters. `new Date(created)` parsing is not modelled, because the date never reaches the prompt.
- `Promise.all` is a boolean choosing which rejection wins when both fetches fail. Timing is not otherwise modelled.
- The toolbar-click and install listeners of `background.js`, the settings link, the enter-key binding, the typing delay constant and the unused `SETTINGS` storage key are not modelled, since none takes part in the pipeline.
- RcaGenerator.GenerateRca: the request it sends carries the corrected prompt, with the files text, diff and URL inserted literally, not the prompt the code's `replace` chain builds. The two differ only when one of those texts holds `$` (see Findings); `RcaGenerator.GenerateRcaAgreesWithCode` states that they agree otherwise.
- RcaGenerator.GeneratedPrompt: states the prompt's shape only when neither inserted text holds `{{`. A files text or diff holding a placeholder is still modelled by the body, but no lemma describes the resulting prompt.

## Findings

| source | as written | input that shows it | evidently intended | confidence | as-written member | corrected member |
|---|---|---|---|---|---|---|
| utils/rca-generator.js:22-29 | each placeholder is replaced with `String.prototype.replace(string, string)`, which expands `$&`, `` $` ``, `$'` and `$$` in the inserted text | a diff that is exactly `$&`: the `{{diff}}` replacement re-inserts the placeholder itself, so the prompt still holds `{{diff}}` and not the diff | the files text, diff and URL are inserted literally | not executed | RcaGenerator.BuildPromptAsWritten, RcaGenerator.DollarDiffKeepsPlaceholder | RcaGenerator.BuildPrompt |

`RcaGenerator.GenerateRca` and everything built on it use the corrected prompt. `RcaGenerator.AsWrittenAgrees` shows the two agree on every input whose inserted texts hold no `$`.

=== FILE: background.dfy ===
/**
  `background.js`: the service worker's message handler. `generateRCA`
  validates the URL, reads the stored credentials, fetches the pull
  request, asks Gemini for the analysis and packages the result;
  `validateApiKey` sends a fixed test prompt. Every outcome is wrapped as
  `{success: true, data}` or `{success: false, error}`.

  Each handler returns its trace — the storage reads and the requests, in
  the order it issues them — with its outcome.
 */
module Background {
  import opened Js
  import opened Text
  import opened Config
  import opened PrUrl
  import opened Http
  import opened Bitbucket
  import opened RcaGenerator
  import opened Storage

  /** One observable step of a handler: a storage read, or a request sent. */
  datatype Step = ReadKey(key: string) | Sent(request: Request)

  /** The `prData` part of the answer: what the popup shows beneath the analysis. */
  datatype PrSummary = PrSummary(title: Option<string>, author: string, url: string)

  datatype RcaData = RcaData(rca: string, prData: PrSummary)

  const InvalidPrUrl: string := "Invalid Bitbucket PR URL. Please provide a valid pull request URL."
  const KeyNotConfigured: string := "Gemini API key not configured. Please set it in the settings."
  /** The `TypeError` `formatRCA` throws when Gemini's first part has no `text`. */
  const TrimOfUndefined: string := "Cannot read properties of undefined (reading 'trim')"
  const TestPrompt: string := "Say \"API key is valid\" if you can read this."
  const InvalidKeyPrefix: string := "Invalid API key or API error: "

  function Sends(requests: seq<Request>): (steps: seq<Step>)
    ensures |steps| == |requests|
    ensures forall i :: 0 <= i < |requests| ==> steps[i] == Sent(requests[i])
  {
    seq(|requests|, i requires 0 <= i < |requests| => Sent(requests[i]))
  }

  /** The three reads of stored credentials, in the order the handler makes them. */
  const CredentialReads: seq<Step> := [ReadKey(GeminiApiKeyKey), ReadKey(BitbucketEmailKey), ReadKey(BitbucketTokenKey)]

  /** The record fetched with the stored credentials, and the requests fetching it takes. */
  function Fetched(url: string, store: Store, bitbucket: Server, detailsFirst: bool): (seq<Request>, Result<PrData>) {
    FetchPrData(url, GetBitbucketEmail(store), GetBitbucketToken(store), bitbucket, detailsFirst)
  }

  /** `formatRCA` applied to the generated text, failing like `undefined.trim()` when there is none. */
  function Package(text: Option<string>, data: PrData): (r: Result<RcaData>)
    ensures r.Ok? <==> text.Some?
    ensures r.Ok? ==> r.value.rca == Trim(text.value) && Bare(r.value.rca)
    ensures r.Ok? ==> r.value.prData == PrSummary(data.title, data.author, data.url)
    ensures r.Err? ==> r.message == TrimOfUndefined
  {
    match text
    case None => Err(TrimOfUndefined)
    case Some(t) => Ok(RcaData(FormatRca(t), PrSummary(data.title, data.author, data.url)))
  }

  /** The outcome of `generateRCA` on a record: its requests and the text it resolves to. */
  type Generated = (seq<Request>, Result<Option<string>>)

  /** The steps after a successful fetch: the Gemini requests, then the packaged answer. */
  function Analyse(data: PrData, generated: Generated): (out: (seq<Step>, Result<RcaData>))
    ensures out.0 == Sends(generated.0)
    ensures out.1.Ok? <==> generated.1.Ok? && generated.1.value.Some?
    ensures out.1.Ok? ==> out.1.value == RcaData(Trim(generated.1.value.value), PrSummary(data.title, data.author, data.url))
    ensures out.1.Ok? ==> Bare(out.1.value.rca)
    ensures generated.1.Err? ==> out.1 == Err(generated.1.message)
  {
    var steps := Sends(generated.0);
    match generated.1
    case Err(m) => (steps, Err(m))
    case Ok(text) => (steps, Package(text, data))
  }

  /**
    `handleGenerateRCA(url)`. An invalid URL fails before anything else; a
    missing key fails after reading it and before any request; otherwise
    the stored email and token go to the fetcher as they are, the fetched
    record goes to Gemini, and the trimmed answer is packaged with the
    record's title, author and URL. Errors surface with their message
    unchanged.
   */
  function HandleGenerateRca(url: string, store: Store, bitbucket: Server, gemini: Gemini, detailsFirst: bool,
                             localeDate: Option<string> -> string): (out: (seq<Step>, Result<RcaData>))
    ensures !IsValidPrUrl(url) ==> out == ([], Err(InvalidPrUrl))
    ensures IsValidPrUrl(url) && !Truthy(GetGeminiApiKey(store)) ==>
      out == ([ReadKey(GeminiApiKeyKey)], Err(KeyNotConfigured))
    ensures IsValidPrUrl(url) && Truthy(GetGeminiApiKey(store)) ==>
      var fetched := Fetched(url, store, bitbucket, detailsFirst);
      && CredentialReads + Sends(fetched.0) <= out.0
      && (fetched.1.Err? ==> out == (CredentialReads + Sends(fetched.0), Err(fetched.1.message)))
  {
    if !IsValidPrUrl(url) then ([], Err(InvalidPrUrl))
    else
      var apiKey := GetGeminiApiKey(store);
      if !Truthy(apiKey) then ([ReadKey(GeminiApiKeyKey)], Err(KeyNotConfigured))
      else AfterKey(Fetched(url, store, bitbucket, detailsFirst), d => GenerateRca(d, apiKey, url, gemini, localeDate))
  }

  /**
    The steps once the key is known, given the fetcher's requests and
    outcome and what `generateRCA` does with a record: the credential
    reads, the fetch, then the analysis of a fetched record.
   */
  function AfterKey(fetched: (seq<Request>, Result<PrData>), generate: PrData -> Generated): (out: (seq<Step>, Result<RcaData>))
    ensures CredentialReads + Sends(fetched.0) <= out.0
    ensures fetched.1.Err? ==> out == (CredentialReads + Sends(fetched.0), Err(fetched.1.message))
    ensures fetched.1.Ok? ==>
      out == (CredentialReads + Sends(fetched.0) + Sends(generate(fetched.1.value).0),
              Analyse(fetched.1.value, generate(fetched.1.value)).1)
  {
    var trace := CredentialReads + Sends(fetched.0);
    match fetched.1
    case Err(m) => (trace, Err(m))
    case Ok(data) =>
      var analysed := Analyse(data, generate(data));
      assert (trace + analysed.0)[..|trace|] == trace;
      (trace + analysed.0, analysed.1)
  }

  /**
    A successful answer describes a record the fetcher returned: the
    analysis is trimmed, and the title, author and URL shown beneath it are
    the record's.
   */
  lemma AnswerDescribesFetchedRecord(url: string, store: Store, bitbucket: Server, gemini: Gemini, detailsFirst: bool,
                                     localeDate: Option<string> -> string)
    requires HandleGenerateRca(url, store, bitbucket, gemini, detailsFirst, localeDate).1.Ok?
    ensures var out := HandleGenerateRca(url, store, bitbucket, gemini, detailsFirst, localeDate);
      var fetched := Fetched(url, store, bitbucket, detailsFirst);
      && fetched.1.Ok? && Bare(out.1.value.rca)
      && out.1.value.prData == PrSummary(fetched.1.value.title, fetched.1.value.author, fetched.1.value.url)
  {
  }

  /** The URL in the answer is the URL asked about. */
  lemma AnswerKeepsUrl(url: string, store: Store, bitbucket: Server, gemini: Gemini, detailsFirst: bool,
                       localeDate: Option<string> -> string)
    requires HandleGenerateRca(url, store, bitbucket, gemini, detailsFirst, localeDate).1.Ok?
    ensures HandleGenerateRca(url, store, bitbucket, gemini, detailsFirst, localeDate).1.value.prData.url == url
  {
    assert ParsePrUrl(url).Some?;
  }

  /**
    The fetcher's own `Invalid Bitbucket PR URL` failure is never reached:
    the handler calls it only with a URL that passed validation, for which
    the fetcher always issues both requests.
   */
  lemma FetcherInvalidUrlUnreachable(url: string, store: Store, bitbucket: Server, detailsFirst: bool)
    requires IsValidPrUrl(url)
    ensures |Fetched(url, store, bitbucket, detailsFirst).0| == 2
    ensures Fetched(url, store, bitbucket, detailsFirst) != ([], Err(InvalidUrl))
  {
  }

  /**
    When the key is set, the URL valid and the fetch successful, the handler
    reads the three credentials, sends the fetcher's two requests, then the
    one request `generateRCA` makes with the stored key.
   */
  lemma GenerateTrace(url: string, store: Store, bitbucket: Server, gemini: Gemini, detailsFirst: bool,
                      localeDate: Option<string> -> string)
    requires IsValidPrUrl(url) && Truthy(GetGeminiApiKey(store))
    requires Fetched(url, store, bitbucket, detailsFirst).1.Ok?
    ensures var out := HandleGenerateRca(url, store, bitbucket, gemini, detailsFirst, localeDate);
      var fetched := Fetched(url, store, bitbucket, detailsFirst);
      var generated := GenerateRca(fetched.1.value, GetGeminiApiKey(store), url, gemini, localeDate);
      out.0 == CredentialReads + Sends(fetched.0) + Sends(generated.0)
  {
  }

  /** That trace has six steps: three reads and three requests. */
  lemma GenerateTraceLength(url: string, store: Store, bitbucket: Server, gemini: Gemini, detailsFirst: bool,
                            localeDate: Option<string> -> string)
    requires IsValidPrUrl(url) && Truthy(GetGeminiApiKey(store))
    requires Fetched(url, store, bitbucket, detailsFirst).1.Ok?
    ensures |HandleGenerateRca(url, store, bitbucket, gemini, detailsFirst, localeDate).0| == 6
  {
    GenerateTrace(url, store, bitbucket, gemini, detailsFirst, localeDate);
    FetcherInvalidUrlUnreachable(url, store, bitbucket, detailsFirst);
  }

  /**
    `handleValidateApiKey(apiKey)`: `true` whenever the test call does not
    fail, whatever text it returns; a failure is rethrown with the
    `Invalid API key` prefix.
   */
  function HandleValidateApiKey(apiKey: string, gemini: Gemini): (out: (seq<Step>, Result<bool>))
    ensures out.0 == [Sent(GeminiRequest(TestPrompt, apiKey))]
    ensures out.1.Ok? <==> CallGemini(TestPrompt, apiKey, gemini).Ok?
    ensures out.1.Ok? ==> out.1.value
    ensures out.1.Err? ==>
      IsPrefix(InvalidKeyPrefix, out.1.message)
      && out.1.message[|InvalidKeyPrefix|..] == CallGemini(TestPrompt, apiKey, gemini).message
  {
    var steps := [Sent(GeminiRequest(TestPrompt, apiKey))];
    match CallGemini(TestPrompt, apiKey, gemini)
    case Ok(_) => (steps, Ok(true))
    case Err(m) =>
      var message := InvalidKeyPrefix + m;
      assert message[..|InvalidKeyPrefix|] == InvalidKeyPrefix;
      (steps, Err(message))
  }

  // ---------------------------------------------------------------------
  // The message handler

  datatype Message = GenerateRcaMessage(url: string) | ValidateApiKeyMessage(apiKey: string) | OtherMessage

  datatype Data = RcaAnswer(result: RcaData) | ValidAnswer(valid: bool)

  /** What `sendResponse` receives: `{success: true, data}` or `{success: false, error}`. */
  datatype Answer = Succeeded(data: Data) | Failed(error: string)

  /** The `.then`/`.catch` wrapping of a handler's outcome. */
  function Wrap<T>(r: Result<T>, inject: T -> Data): (a: Answer)
    ensures a.Succeeded? <==> r.Ok?
    ensures r.Ok? ==> a.data == inject(r.value)
    ensures r.Err? ==> a.error == r.message
  {
    match r
    case Ok(v) => Succeeded(inject(v))
    case Err(m) => Failed(m)
  }

  /** What the popup recovers from an answer to `generateRCA`. */
  function UnwrapRca(a: Answer): Result<RcaData> {
    match a
    case Succeeded(RcaAnswer(d)) => Ok(d)
    case Succeeded(_) => Err("")
    case Failed(e) => Err(e)
  }

  /** Wrapping loses nothing: the outcome can be read back from the answer. */
  lemma WrapRoundTrip(r: Result<RcaData>)
    ensures UnwrapRca(Wrap(r, d => RcaAnswer(d))) == r
  {
  }

  /**
    The `onMessage` listener: the two known actions are answered with their
    handler's wrapped outcome; any other message gets no answer.
   */
  function OnMessage(message: Message, store: Store, bitbucket: Server, gemini: Gemini, detailsFirst: bool,
                     localeDate: Option<string> -> string): (out: (seq<Step>, Option<Answer>))
    ensures message.OtherMessage? <==> out.1.None?
    ensures message.GenerateRcaMessage? ==>
      var handled := HandleGenerateRca(message.url, store, bitbucket, gemini, detailsFirst, localeDate);
      && out.0 == handled.0
      && (out.1 == Some(Failed(handled.1.message)) <== handled.1.Err?)
      && (out.1 == Some(Succeeded(RcaAnswer(handled.1.value))) <== handled.1.Ok?)
    ensures message.ValidateApiKeyMessage? ==>
      var handled := HandleValidateApiKey(message.apiKey, gemini);
      && out.0 == handled.0
      && (out.1 == Some(Failed(handled.1.message)) <== handled.1.Err?)
      && (out.1 == Some(Succeeded(ValidAnswer(true))) <== handled.1.Ok?)
  {
    match message
    case GenerateRcaMessage(url) =>
      var handled := HandleGenerateRca(url, store, bitbucket, gemini, detailsFirst, localeDate);
      (handled.0, Some(Wrap(handled.1, d => RcaAnswer(d))))
    case ValidateApiKeyMessage(apiKey) =>
      var handled := HandleValidateApiKey(apiKey, gemini);
      (handled.0, Some(Wrap(handled.1, v => ValidAnswer(v))))
    case OtherMessage => ([], None)
  }
}

=== FILE: bitbucket.dfy ===
/**
  The Bitbucket side of `utils/bitbucket.js`: the two REST fetches with
  their optional Basic authorization and their error classification, and
  `fetchPRData`, which parses the URL, runs both fetches and assembles the
  pull-request record with its defaults. The server is a function from
  request to reply; each operation also returns the requests it issued.
 */
module Bitbucket {
  import opened Js
  import opened Text
  import opened Config
  import opened PrUrl
  import opened Http

  /** The fields of a pull request's JSON that the extension reads; each may be missing. */
  datatype DetailsJson = DetailsJson(
    title: Option<string>,
    description: Option<string>,
    authorName: Option<string>,
    createdOn: Option<string>,
    state: Option<string>,
    sourceBranch: Option<string>,
    destinationBranch: Option<string>)

  /** The record `fetchPRData` resolves to. */
  datatype PrData = PrData(
    title: Option<string>,
    description: string,
    author: string,
    created: Option<string>,
    state: Option<string>,
    source: Option<string>,
    destination: Option<string>,
    diff: string,
    url: string)

  /** The Bitbucket REST API as seen from the extension. */
  type Server = Request -> Reply<DetailsJson>

  const NoDescription: string := "No description provided"
  const UnknownAuthor: string := "Unknown"
  const InvalidUrl: string := "Invalid Bitbucket PR URL"
  const PrivateHint: string := "." + " This might be a private repository. "
    + "Please configure your Atlassian email and API token in settings."

  /** `.../repositories/{workspace}/{repo}/pullrequests/{id}`. */
  function PullRequestEndpoint(info: PrInfo): string {
    BitbucketApiBase + "/repositories/" + info.workspace + "/" + info.repoSlug + "/pullrequests/" + info.prId
  }

  /** Both credentials are set: `email && apiToken`. */
  predicate HasCredentials(email: Option<string>, token: Option<string>) {
    Truthy(email) && Truthy(token)
  }

  /**
    The headers of either fetch: `Accept`, then `Authorization: Basic …`
    exactly when both credentials are set.
   */
  function AuthHeaders(accept: string, email: Option<string>, token: Option<string>): (hs: seq<Header>)
    ensures |hs| >= 1 && hs[0] == Header("Accept", Plain(accept))
    ensures HeaderNamed(hs, "Authorization").Some? <==> HasCredentials(email, token)
    ensures HasCredentials(email, token) ==> HeaderNamed(hs, "Authorization") == Some(Basic(email.value, token.value))
    ensures !HasCredentials(email, token) ==> hs == [Header("Accept", Plain(accept))]
  {
    var accepting := [Header("Accept", Plain(accept))];
    if HasCredentials(email, token) then
      var hs := accepting + [Header("Authorization", Basic(email.value, token.value))];
      assert hs[1..] == [Header("Authorization", Basic(email.value, token.value))];
      hs
    else
      accepting
  }

  /** A 401 or 403 while a credential is missing: the reply suggests configuring them. */
  predicate PrivateRepoHint(status: nat, email: Option<string>, token: Option<string>) {
    (status == 401 || status == 403) && !HasCredentials(email, token)
  }

  /** The common start of both failure messages: the object fetched and the status. */
  function FailurePrefix(what: string, status: nat): string {
    "Failed to fetch PR " + what + ": " + Decimal(status)
  }

  /**
    The message a fetch of `what` (`details` or `diff`) throws on a non-OK
    status. It always starts with the status; the character after it tells
    the two kinds apart: `.` for the private-repository hint, a space
    before the server's error text otherwise.
   */
  function FailureMessage(what: string, status: nat, errorText: string, email: Option<string>, token: Option<string>): (m: string)
    ensures IsPrefix(FailurePrefix(what, status), m) && |m| > |FailurePrefix(what, status)|
    ensures m[|FailurePrefix(what, status)|] == '.' <==> PrivateRepoHint(status, email, token)
    ensures PrivateRepoHint(status, email, token) ==> m == FailurePrefix(what, status) + PrivateHint
    ensures !PrivateRepoHint(status, email, token) ==> m[|FailurePrefix(what, status)| + 1..] == errorText
  {
    var prefix := FailurePrefix(what, status);
    if PrivateRepoHint(status, email, token) then
      var m := prefix + PrivateHint;
      assert m[..|prefix|] == prefix;
      m
    else
      var m := prefix + " " + errorText;
      assert m[..|prefix|] == prefix;
      assert m[|prefix| + 1..] == errorText;
      m
  }

  /** `await response.text().catch(() => response.statusText)`. */
  function ErrorText<J>(response: Response<J>): (t: string)
    ensures response.text.Ok? ==> t == response.text.value
    ensures response.text.Err? ==> t == response.statusText
  {
    match response.text
    case Ok(t) => t
    case Err(_) => response.statusText
  }

  /** The part both fetches share: a rejected `fetch` propagates, a non-OK status fails with `FailureMessage`. */
  function Checked(what: string, reply: Reply<DetailsJson>, email: Option<string>, token: Option<string>): (r: Result<Response<DetailsJson>>)
    ensures r.Ok? <==> reply.Answered? && IsOk(reply.response.status)
    ensures r.Ok? ==> r.value == reply.response
    ensures reply.NetworkError? ==> r == Err(reply.message)
    ensures reply.Answered? && !IsOk(reply.response.status) ==>
      r == Err(FailureMessage(what, reply.response.status, ErrorText(reply.response), email, token))
  {
    match reply
    case NetworkError(m) => Err(m)
    case Answered(response) =>
      if IsOk(response.status) then Ok(response)
      else Err(FailureMessage(what, response.status, ErrorText(response), email, token))
  }

  /** The request `fetchPRDetails` issues. */
  function DetailsRequest(info: PrInfo, email: Option<string>, token: Option<string>): Request {
    Request(Get, PullRequestEndpoint(info), AuthHeaders("application/json", email, token), NoPayload)
  }

  /** The request `fetchPRDiff` issues. */
  function DiffRequest(info: PrInfo, email: Option<string>, token: Option<string>): Request {
    Request(Get, PullRequestEndpoint(info) + "/diff", AuthHeaders("text/plain", email, token), NoPayload)
  }

  /** `fetchPRDetails`: the parsed JSON of an OK reply, or the error it throws. */
  function FetchDetails(info: PrInfo, email: Option<string>, token: Option<string>, server: Server): (r: Result<DetailsJson>)
    ensures r.Ok? <==> server(DetailsRequest(info, email, token)).Answered?
                        && IsOk(server(DetailsRequest(info, email, token)).response.status)
                        && server(DetailsRequest(info, email, token)).response.json.Ok?
    ensures r.Ok? ==> r.value == server(DetailsRequest(info, email, token)).response.json.value
    ensures var reply := server(DetailsRequest(info, email, token));
      reply.NetworkError? ==> r == Err(reply.message)
    ensures var reply := server(DetailsRequest(info, email, token));
      reply.Answered? && !IsOk(reply.response.status) ==>
        r == Err(FailureMessage("details", reply.response.status, ErrorText(reply.response), email, token))
    ensures var reply := server(DetailsRequest(info, email, token));
      reply.Answered? && IsOk(reply.response.status) && reply.response.json.Err? ==> r == Err(reply.response.json.message)
  {
    var reply := server(DetailsRequest(info, email, token));
    match Checked("details", reply, email, token)
    case Err(m) => Err(m)
    case Ok(response) => response.json
  }

  /** `fetchPRDiff`: the text of an OK reply, or the error it throws. */
  function FetchDiff(info: PrInfo, email: Option<string>, token: Option<string>, server: Server): (r: Result<string>)
    ensures r.Ok? <==> server(DiffRequest(info, email, token)).Answered?
                        && IsOk(server(DiffRequest(info, email, token)).response.status)
                        && server(DiffRequest(info, email, token)).response.text.Ok?
    ensures r.Ok? ==> r.value == server(DiffRequest(info, email, token)).response.text.value
    ensures var reply := server(DiffRequest(info, email, token));
      reply.NetworkError? ==> r == Err(reply.message)
    ensures var reply := server(DiffRequest(info, email, token));
      reply.Answered? && !IsOk(reply.response.status) ==>
        r == Err(FailureMessage("diff", reply.response.status, ErrorText(reply.response), email, token))
    ensures var reply := server(DiffRequest(info, email, token));
      reply.Answered? && IsOk(reply.response.status) && reply.response.text.Err? ==> r == Err(reply.response.text.message)
  {
    var reply := server(DiffRequest(info, email, token));
    match Checked("diff", reply, email, token)
    case Err(m) => Err(m)
    case Ok(response) => response.text
  }

  /** The record built from the two successful fetches, with its defaults. */
  function Record(details: DetailsJson, diff: string, url: string): (d: PrData)
    ensures d.description == OrElse(details.description, NoDescription)
    ensures d.author == OrElse(details.authorName, UnknownAuthor)
    ensures d.description != "" && d.author != ""
    ensures d.title == details.title && d.diff == diff && d.url == url
  {
    PrData(details.title,
           OrElse(details.description, NoDescription),
           OrElse(details.authorName, UnknownAuthor),
           details.createdOn, details.state, details.sourceBranch, details.destinationBranch,
           diff, url)
  }

  /**
    `fetchPRData(url, email, apiToken)`: the requests issued and the
    outcome. An unrecognised URL fails before any request. Otherwise both
    fetches are started together, and the call succeeds exactly when both
    do, with the record built from their results; if only one fails its
    error surfaces, and when both fail the one that settles first wins,
    given here by `detailsFirst`.
   */
  function FetchPrData(url: string, email: Option<string>, token: Option<string>, server: Server, detailsFirst: bool)
    : (out: (seq<Request>, Result<PrData>))
    ensures ParsePrUrl(url).None? ==> out == ([], Err(InvalidUrl))
    ensures ParsePrUrl(url).Some? ==>
      var info := ParsePrUrl(url).value;
      var details := FetchDetails(info, email, token, server);
      var diff := FetchDiff(info, email, token, server);
      && out.0 == [DetailsRequest(info, email, token), DiffRequest(info, email, token)]
      && (out.1.Ok? <==> details.Ok? && diff.Ok?)
      && (out.1.Ok? ==> out.1.value == Record(details.value, diff.value, url))
      && (out.1.Err? ==> (details.Err? && out.1.message == details.message)
                         || (diff.Err? && out.1.message == diff.message))
      && (details.Err? && diff.Ok? ==> out.1 == Err(details.message))
      && (details.Ok? && diff.Err? ==> out.1 == Err(diff.message))
  {
    match ParsePrUrl(url)
    case None => ([], Err(InvalidUrl))
    case Some(info) =>
      var details := FetchDetails(info, email, token, server);
      var diff := FetchDiff(info, email, token, server);
      var requests := [DetailsRequest(info, email, token), DiffRequest(info, email, token)];
      if details.Err? && (diff.Ok? || detailsFirst) then (requests, Err(details.message))
      else if diff.Err? then (requests, Err(diff.message))
      else (requests, Ok(Record(details.value, diff.value, url)))
  }

  /** With both credentials set, no failure carries the private-repository hint, whatever the status. */
  lemma CredentialsSuppressHint(what: string, status: nat, errorText: string, email: Option<string>, token: Option<string>)
    requires HasCredentials(email, token)
    ensures FailureMessage(what, status, errorText, email, token)
         == FailurePrefix(what, status) + " " + errorText
  {
  }
}

=== FILE: config.dfy ===
/**
  The extension's configuration constants: REST endpoints, the storage
  keys, the chat-history cap and the prompt template with its two
  placeholders.
 */
module Config {
  import opened Text

  const GeminiApiEndpoint: string :=
    "https://generativelanguage.googleapis.com/v1beta/models/gemini-3-flash-preview:generateContent"

  const BitbucketApiBase: string := "https://api.bitbucket.org/2.0"

  // Storage keys
  const GeminiApiKeyKey: string := "gemini_api_key"
  const BitbucketEmailKey: string := "bitbucket_email"
  const BitbucketTokenKey: string := "bitbucket_token"
  const ChatHistoryKey: string := "chat_history"
  const SettingsKey: string := "settings"

  /** The number of chat entries kept in storage. */
  const MaxChatHistory: nat := 50

  /** The storage keys are pairwise distinct, so each accessor owns its own slot. */
  lemma StorageKeysDistinct()
    ensures GeminiApiKeyKey != BitbucketEmailKey && GeminiApiKeyKey != BitbucketTokenKey
    ensures GeminiApiKeyKey != ChatHistoryKey && GeminiApiKeyKey != SettingsKey
    ensures BitbucketEmailKey != BitbucketTokenKey && BitbucketEmailKey != ChatHistoryKey
    ensures BitbucketEmailKey != SettingsKey && BitbucketTokenKey != ChatHistoryKey
    ensures BitbucketTokenKey != SettingsKey && ChatHistoryKey != SettingsKey
  {
  }

  // ---------------------------------------------------------------------
  // The RCA prompt template, paragraph by paragraph. Each paragraph is
  // spelled in short pieces so that its characters are visible to the
  // verifier.

  const Preamble: string :=
      "Read the code changes "
    + "below and rewrite "
    + "the content under "
    + "each section in "
    + "clear, simple language "
    + "that non-technical "
    + "users can understand.\n"
    + "\n"

  const RulesStructure: string :=
      "STRICT RULES:\n- "
    + "Do NOT change, rename, "
    + "reorder, or remove "
    + "any section headers.\n"
    + "- Keep the exact "
    + "output structure "
    + "and section order.\n"

  const RulesContent: string :=
      "- Only rewrite the "
    + "content under each "
    + "header.\n- Do NOT "
    + "add new sections "
    + "or extra explanations.\n"

  const RulesDetail: string :=
      "- Keep all existing "
    + "information, but "
    + "make it more human-readable.\n"
    + "- Be concise and "
    + "clear.\n"

  const Separator: string :=
      "\n---\n"

  const BugSummary: string :=
      "**Bug Summary**\n"
    + "Explain the issue "
    + "or feature in simple, "
    + "non-technical terms.\n"
    + "\n"

  const RootCause: string :=
      "**Root Cause Analysis**\n"
    + "Explain why the "
    + "issue occurred or "
    + "why the change was "
    + "required, in plain "
    + "language.\n\n"

  const FixDescription: string :=
      "**Fix Description**\n"
    + "Explain what was "
    + "changed to resolve "
    + "the issue or add "
    + "the feature, simply "
    + "and clearly.\n\n"

  const FilesHeading: string :=
      "**Files Changed**\n"

  const Testing: string :=
      "**Testing Details**\n"
    + "Explain how the "
    + "change was verified "
    + "or tested, in easy-to-understand "
    + "terms.\n\n"

  const Impact: string :=
      "**Impact on Related "
    + "Areas**\nMention "
    + "any other areas "
    + "that could be affected "
    + "by this change, "
    + "if applicable.\n\n"

  const EndUserImpact: string :=
      "**End-User Impact**\n"
    + "Explain how this "
    + "change improves "
    + "the user experience "
    + "or behavior.\n\n"

  const CodeHeading: string :=
      "**Code Changes:**\n"

  // The placeholders the prompt builder substitutes.
  const TitlePlaceholder: string := "{{title}}"
  const DescriptionPlaceholder: string := "{{description}}"
  const AuthorPlaceholder: string := "{{author}}"
  const CreatedPlaceholder: string := "{{created}}"
  const FilesPlaceholder: string := "{{files}}"
  const DiffPlaceholder: string := "{{diff}}"
  const FixUrlPlaceholder: string := "{{fix_url}}"

  /** The template text before the files placeholder. */
  const Head: string :=
    Preamble + RulesStructure + RulesContent + RulesDetail + Separator
    + BugSummary + RootCause + FixDescription + FilesHeading

  /** The template text between the files and the diff placeholders. */
  const Middle: string := "\n\n" + Testing + Impact + EndUserImpact + CodeHeading

  /** The template text after the diff placeholder. */
  const Tail: string := "\n"

  const RcaPromptTemplate: string := Fill(Head, Middle)

  /** Where the diff placeholder starts in the template. */
  const DiffIndex: nat := |Head| + |FilesPlaceholder| + |Middle|

  /** Text free of opening braces, hence free of any placeholder. */
  predicate Prose(s: string) {
    '{' !in s
  }

  lemma PreambleIsProse() ensures Prose(Preamble) {}
  lemma RulesStructureIsProse() ensures Prose(RulesStructure) {}
  lemma RulesContentIsProse() ensures Prose(RulesContent) {}
  lemma RulesDetailIsProse() ensures Prose(RulesDetail) {}
  lemma SeparatorIsProse() ensures Prose(Separator) {}
  lemma BugSummaryIsProse() ensures Prose(BugSummary) {}
  lemma RootCauseIsProse() ensures Prose(RootCause) {}
  lemma FixDescriptionIsProse() ensures Prose(FixDescription) {}
  lemma FilesHeadingIsProse() ensures Prose(FilesHeading) {}
  lemma TestingIsProse() ensures Prose(Testing) {}
  lemma ImpactIsProse() ensures Prose(Impact) {}
  lemma EndUserImpactIsProse() ensures Prose(EndUserImpact) {}
  lemma CodeHeadingIsProse() ensures Prose(CodeHeading) {}

  lemma HeadIsProse()
    ensures Prose(Head)
  {
    PreambleIsProse(); RulesStructureIsProse(); RulesContentIsProse(); RulesDetailIsProse(); SeparatorIsProse();
    BugSummaryIsProse(); RootCauseIsProse(); FixDescriptionIsProse(); FilesHeadingIsProse();
  }

  lemma MiddleIsProse()
    ensures Prose(Middle)
    ensures |Middle| > 0 && Middle[0] == '\n'
  {
    TestingIsProse(); ImpactIsProse(); EndUserImpactIsProse(); CodeHeadingIsProse();
  }

  /** A template of this shape: prose, `{{files}}`, prose, `{{diff}}`, a line break. */
  function Fill(head: string, middle: string): string {
    head + FilesPlaceholder + middle + DiffPlaceholder + Tail
  }

  /** In such a template the opening braces are those of the two placeholders. */
  lemma {:induction false} BracePositions(head: string, middle: string, i: int)
    requires Prose(head) && Prose(middle)
    requires 0 <= i < |Fill(head, middle)| && Fill(head, middle)[i] == '{'
    ensures var d := |head| + |FilesPlaceholder| + |middle|;
      i == |head| || i == |head| + 1 || i == d || i == d + 1
  {
    var t := Fill(head, middle);
    var h := |head|;
    assert forall k :: 0 <= k < h ==> t[k] == head[k];
    assert forall k :: 0 <= k < |middle| ==> t[h + |FilesPlaceholder| + k] == middle[k];
  }

  /** In such a template a pattern opening with two braces occurs only where a placeholder starts. */
  lemma PlaceholderPositions(head: string, middle: string, pat: string, i: int)
    requires Prose(head) && Prose(middle)
    requires |pat| >= 2 && pat[0] == '{' && pat[1] == '{'
    requires OccursAt(pat, Fill(head, middle), i)
    ensures i == |head| || i == |head| + |FilesPlaceholder| + |middle|
  {
    var t := Fill(head, middle);
    var d := |head| + |FilesPlaceholder| + |middle|;
    assert t[i] == t[i..i + |pat|][0] == '{';
    assert t[i + 1] == t[i..i + |pat|][1] == '{';
    BracePositions(head, middle, i);
    BracePositions(head, middle, i + 1);
    assert t[|head| + 2] == FilesPlaceholder[2];
    assert t[d + 2] == DiffPlaceholder[2];
  }

  /** The characters of such a template that tell its two placeholders apart from the others. */
  lemma SlotCharacters(head: string, middle: string)
    ensures var t := Fill(head, middle);
      var h := |head|;
      var d := h + |FilesPlaceholder| + |middle|;
      && t[h..h + |FilesPlaceholder|] == FilesPlaceholder && t[d..d + |DiffPlaceholder|] == DiffPlaceholder
      && t[h + 2] == 'f' && t[h + 4] == 'l' && t[d + 2] == 'd' && t[d + 3] == 'i'
  {
    var t := Fill(head, middle);
    var h := |head|;
    var d := h + |FilesPlaceholder| + |middle|;
    assert t[h..h + |FilesPlaceholder|] == FilesPlaceholder;
    assert t[d..d + |DiffPlaceholder|] == DiffPlaceholder;
  }

  /** A pattern opening with two braces that sits at neither placeholder is absent. */
  lemma AbsentOffSlots(head: string, middle: string, pat: string)
    requires Prose(head) && Prose(middle)
    requires |pat| >= 2 && pat[0] == '{' && pat[1] == '{'
    requires !OccursAt(pat, Fill(head, middle), |head|)
    requires !OccursAt(pat, Fill(head, middle), |head| + |FilesPlaceholder| + |middle|)
    ensures Absent(pat, Fill(head, middle))
  {
    forall i | OccursAt(pat, Fill(head, middle), i) ensures false {
      PlaceholderPositions(head, middle, pat, i);
    }
  }

  /** `{{files}}` occurs in such a template exactly at its slot. */
  lemma FilesOnce(head: string, middle: string)
    requires Prose(head) && Prose(middle)
    ensures forall i :: OccursAt(FilesPlaceholder, Fill(head, middle), i) <==> i == |head|
  {
    var d := |head| + |FilesPlaceholder| + |middle|;
    SlotCharacters(head, middle);
    DiffersAt(FilesPlaceholder, Fill(head, middle), d, 2);
    forall i | OccursAt(FilesPlaceholder, Fill(head, middle), i) ensures i == |head| {
      PlaceholderPositions(head, middle, FilesPlaceholder, i);
    }
  }

  /** `{{diff}}` occurs in such a template exactly at its slot. */
  lemma DiffOnce(head: string, middle: string)
    requires Prose(head) && Prose(middle)
    ensures forall i :: OccursAt(DiffPlaceholder, Fill(head, middle), i) <==>
                          i == |head| + |FilesPlaceholder| + |middle|
  {
    SlotCharacters(head, middle);
    DiffersAt(DiffPlaceholder, Fill(head, middle), |head|, 2);
    forall i | OccursAt(DiffPlaceholder, Fill(head, middle), i) ensures i == |head| + |FilesPlaceholder| + |middle| {
      PlaceholderPositions(head, middle, DiffPlaceholder, i);
    }
  }

  /** None of the other five placeholders occurs in such a template. */
  lemma OthersAbsent(head: string, middle: string)
    requires Prose(head) && Prose(middle)
    ensures Absent(TitlePlaceholder, Fill(head, middle))
    ensures Absent(DescriptionPlaceholder, Fill(head, middle))
    ensures Absent(AuthorPlaceholder, Fill(head, middle))
    ensures Absent(CreatedPlaceholder, Fill(head, middle))
    ensures Absent(FixUrlPlaceholder, Fill(head, middle))
  {
    var t := Fill(head, middle);
    var h := |head|;
    var d := h + |FilesPlaceholder| + |middle|;
    SlotCharacters(head, middle);
    DiffersAt(TitlePlaceholder, t, h, 2);
    DiffersAt(TitlePlaceholder, t, d, 2);
    AbsentOffSlots(head, middle, TitlePlaceholder);
    DiffersAt(DescriptionPlaceholder, t, h, 2);
    DiffersAt(DescriptionPlaceholder, t, d, 3);
    AbsentOffSlots(head, middle, DescriptionPlaceholder);
    DiffersAt(AuthorPlaceholder, t, h, 2);
    DiffersAt(AuthorPlaceholder, t, d, 2);
    AbsentOffSlots(head, middle, AuthorPlaceholder);
    DiffersAt(CreatedPlaceholder, t, h, 2);
    DiffersAt(CreatedPlaceholder, t, d, 2);
    AbsentOffSlots(head, middle, CreatedPlaceholder);
    DiffersAt(FixUrlPlaceholder, t, h, 4);
    DiffersAt(FixUrlPlaceholder, t, d, 2);
    AbsentOffSlots(head, middle, FixUrlPlaceholder);
  }

  /**
    The template holds `{{files}}` exactly once and `{{diff}}` exactly
    once, and none of the other placeholders the prompt builder
    substitutes.
   */
  lemma TemplatePlaceholders()
    ensures forall i :: OccursAt(FilesPlaceholder, RcaPromptTemplate, i) <==> i == |Head|
    ensures forall i :: OccursAt(DiffPlaceholder, RcaPromptTemplate, i) <==> i == DiffIndex
    ensures Absent(TitlePlaceholder, RcaPromptTemplate)
    ensures Absent(DescriptionPlaceholder, RcaPromptTemplate)
    ensures Absent(AuthorPlaceholder, RcaPromptTemplate)
    ensures Absent(CreatedPlaceholder, RcaPromptTemplate)
    ensures Absent(FixUrlPlaceholder, RcaPromptTemplate)
  {
    HeadIsProse();
    MiddleIsProse();
    FilesOnce(Head, Middle);
    DiffOnce(Head, Middle);
    OthersAbsent(Head, Middle);
  }
}

=== FILE: diff_files.dfy ===
/**
  `extractFilesFromDiff` of `utils/bitbucket.js`: the diff is split into
  lines, and each line starting with `diff --git` is matched against
  `/diff --git a\/(.+) b\/(.+)/`; the second capture of every match is
  collected. The regular expression is written out by hand with the
  ECMA-262 reading of its parts: the match is the leftmost one, the first
  `(.+)` is greedy and so backtracks to the last workable ` b/`, the
  second `(.+)` is greedy, and `.` matches any character but a line
  terminator.
 */
module DiffFiles {
  import opened Js
  import opened Text

  /** The prefix a line must carry before the pattern is tried. */
  const HeaderPrefix: string := "diff --git"
  /** The literal text ahead of the first capture. */
  const HeaderLead: string := "diff --git a/"
  /** The literal text between the two captures. */
  const Marker: string := " b/"

  /** The characters ECMA-262's `.` refuses: LF, CR, LINE SEPARATOR, PARAGRAPH SEPARATOR. */
  predicate IsLineTerminator(c: char) {
    c == '\n' || c == '\r' || c == '\U{2028}' || c == '\U{2029}'
  }

  predicate NotTerminator(c: char) {
    !IsLineTerminator(c)
  }

  /**
    Reference meaning of the pattern: a match starting at `k` whose first
    capture is `line[k + 13..j]` and whose second capture is
    `line[j + 3..e]`. Both captures are non-empty and free of line
    terminators.
   */
  predicate MatchAt(line: string, k: int, j: int, e: int) {
    && OccursAt(HeaderLead, line, k)
    && k + |HeaderLead| < j
    && OccursAt(Marker, line, j)
    && j + |Marker| < e <= |line|
    && forall i :: k + |HeaderLead| <= i < e ==> NotTerminator(line[i])
  }

  /** The end of the run of non-terminators that starts at `p`. */
  function RunEnd(line: string, p: nat): (e: nat)
    requires p <= |line|
    ensures p <= e <= |line|
    ensures forall i :: p <= i < e ==> NotTerminator(line[i])
    ensures e == |line| || IsLineTerminator(line[e])
  {
    var n := Span(line[p..], NotTerminator);
    assert forall i :: p <= i < p + n ==> line[i] == line[p..][i - p];
    p + n
  }

  /** The last occurrence of ` b/` starting in `[lo, hi]`, found by searching down from `hi`. */
  function LastMarker(line: string, lo: int, hi: int): (r: Option<nat>)
    ensures r.Some? ==> lo <= r.value <= hi && OccursAt(Marker, line, r.value)
    ensures r.Some? ==> forall j :: r.value < j <= hi ==> !OccursAt(Marker, line, j)
    ensures r.None? ==> forall j :: lo <= j <= hi ==> !OccursAt(Marker, line, j)
    decreases hi - lo
  {
    if hi < lo || hi < 0 then None
    else if OccursAt(Marker, line, hi) then Some(hi)
    else LastMarker(line, lo, hi - 1)
  }

  /**
    The match the backtracking engine finds when it starts at `k`: the
    greedy first capture gives back characters until a ` b/` followed by
    at least one more character is found, and the second capture takes the
    rest of the run of non-terminators.
   */
  function MatchFrom(line: string, k: nat): (r: Option<(nat, nat)>)
    ensures r.Some? ==> MatchAt(line, k, r.value.0, r.value.1)
  {
    if !OccursAt(HeaderLead, line, k) then None
    else
      var p := k + |HeaderLead|;
      var e := RunEnd(line, p);
      match LastMarker(line, p + 1, e - |Marker| - 1)
      case None => None
      case Some(j) =>
        assert forall i :: j <= i < j + |Marker| ==> line[i] == Marker[i - j];
        Some((j, e))
  }

  /** At a fixed start the engine's choice has the longest first capture, then the longest second one. */
  lemma MatchFromGreedy(line: string, k: nat, j: int, e: int)
    requires MatchAt(line, k, j, e)
    ensures MatchFrom(line, k).Some?
    ensures j <= MatchFrom(line, k).value.0
    ensures j == MatchFrom(line, k).value.0 ==> e <= MatchFrom(line, k).value.1
  {
    var end := RunEnd(line, k + |HeaderLead|);
    assert e <= end;
  }

  /** The leftmost start at or after `k` where the pattern matches, with the engine's captures there. */
  function MatchSearch(line: string, k: nat): (r: Option<(nat, nat, nat)>)
    ensures r.Some? ==> k <= r.value.0 && MatchAt(line, r.value.0, r.value.1, r.value.2)
    decreases |line| - k
  {
    if k > |line| then None
    else
      match MatchFrom(line, k)
      case Some((j, e)) => Some((k, j, e))
      case None => MatchSearch(line, k + 1)
  }

  /** `line.match(/diff --git a\/(.+) b\/(.+)/)`: start, end of the first capture, end of the second. */
  function HeaderMatch(line: string): (r: Option<(nat, nat, nat)>)
    ensures r.Some? ==> MatchAt(line, r.value.0, r.value.1, r.value.2)
  {
    MatchSearch(line, 0)
  }

  /** The search finds a match whenever one starts at or after `k`, and none starts earlier than its own. */
  lemma {:induction false} MatchSearchLeftmost(line: string, k: nat, k': nat, j: int, e: int)
    requires k <= k' && MatchAt(line, k', j, e)
    ensures MatchSearch(line, k).Some?
    ensures MatchSearch(line, k).value.0 <= k'
    ensures MatchSearch(line, k).value.0 == k' ==> MatchSearch(line, k) == Some((k', MatchFrom(line, k').value.0, MatchFrom(line, k').value.1))
    decreases k' - k
  {
    if MatchFrom(line, k).None? {
      if k == k' {
        MatchFromGreedy(line, k', j, e);
      } else {
        MatchSearchLeftmost(line, k + 1, k', j, e);
      }
    }
  }

  /**
    The engine's choice is the regular-expression reading of the pattern:
    no match exists when none is reported; otherwise the reported start is
    the leftmost one, and at it the first capture is the longest possible
    and then the second capture is the longest possible.
   */
  lemma HeaderMatchIsLeftmostGreedy(line: string, k: int, j: int, e: int)
    requires MatchAt(line, k, j, e)
    ensures HeaderMatch(line).Some?
    ensures HeaderMatch(line).value.0 <= k
    ensures HeaderMatch(line).value.0 == k ==> j <= HeaderMatch(line).value.1
    ensures HeaderMatch(line).value.0 == k && HeaderMatch(line).value.1 == j ==> e <= HeaderMatch(line).value.2
  {
    MatchSearchLeftmost(line, 0, k, j, e);
    MatchFromGreedy(line, k, j, e);
  }

  /** `match[2]`: the second capture of the header pattern, if the line matches. */
  function HeaderPath(line: string): (r: Option<string>)
    ensures r.Some? ==> |r.value| > 0 && forall i :: 0 <= i < |r.value| ==> NotTerminator(r.value[i])
  {
    match HeaderMatch(line)
    case None => None
    case Some((k, j, e)) => Some(line[j + |Marker|..e])
  }

  /** The header line spelled out from its two paths. */
  function HeaderLine(x: string, y: string): string {
    HeaderLead + x + Marker + y
  }

  /** A header line with non-empty, terminator-free paths matches at its start with those paths. */
  lemma HeaderLineMatches(x: string, y: string)
    requires |x| > 0 && |y| > 0
    requires forall i :: 0 <= i < |x| ==> NotTerminator(x[i])
    requires forall i :: 0 <= i < |y| ==> NotTerminator(y[i])
    ensures MatchAt(HeaderLine(x, y), 0, |HeaderLead| + |x|, |HeaderLine(x, y)|)
    ensures HeaderLine(x, y)[|HeaderLead| + |x| + |Marker|..] == y
  {
    var line := HeaderLine(x, y);
    var j := |HeaderLead| + |x|;
    assert line[..|HeaderLead|] == HeaderLead;
    assert line[j..j + |Marker|] == Marker;
    assert line[j + |Marker|..] == y;
    assert forall i :: |HeaderLead| <= i < j ==> line[i] == x[i - |HeaderLead|];
    assert forall i :: j + |Marker| <= i < |line| ==> line[i] == y[i - j - |Marker|];
  }

  /** In such a line no ` b/` starts after the one ahead of `y` unless `y` holds one. */
  lemma HeaderLineLastMarker(x: string, y: string, j': int)
    requires forall i :: !OccursAt(Marker, y, i)
    requires |HeaderLead| + |x| < j'
    ensures !OccursAt(Marker, HeaderLine(x, y), j')
  {
    var line := HeaderLine(x, y);
    var j := |HeaderLead| + |x|;
    if j' < j + |Marker| {
      assert line[j + 1] == 'b' && line[j + 2] == '/';
    } else if j' + |Marker| <= |line| {
      var t := j' - j - |Marker|;
      assert line[j'..j' + |Marker|] == y[t..t + |Marker|];
      assert !OccursAt(Marker, y, t);
    }
  }

  /**
    A header line `diff --git a/X b/Y` without line terminators, where `Y`
    holds no ` b/` of its own, yields `Y`: the text after the last ` b/`.
   */
  lemma WellFormedHeader(x: string, y: string)
    requires |x| > 0 && |y| > 0
    requires forall i :: 0 <= i < |x| ==> NotTerminator(x[i])
    requires forall i :: 0 <= i < |y| ==> NotTerminator(y[i])
    requires forall i :: !OccursAt(Marker, y, i)
    ensures HeaderPath(HeaderLine(x, y)) == Some(y)
  {
    var line := HeaderLine(x, y);
    var j := |HeaderLead| + |x|;
    HeaderLineMatches(x, y);
    HeaderMatchIsLeftmostGreedy(line, 0, j, |line|);
    var (k', j', e') := HeaderMatch(line).value;
    if j' > j {
      HeaderLineLastMarker(x, y, j');
    }
    assert k' == 0 && j' == j && e' == |line|;
    assert line[j + |Marker|..e'] == line[j + |Marker|..];
  }

  /**
    A header line ending in a carriage return (a diff with CRLF line ends)
    yields the same path: `.` does not match the `\r`, so it is not
    captured.
   */
  lemma CarriageReturnNotCaptured(x: string, y: string)
    requires |x| > 0 && |y| > 0
    requires forall i :: 0 <= i < |x| ==> NotTerminator(x[i])
    requires forall i :: 0 <= i < |y| ==> NotTerminator(y[i])
    requires forall i :: !OccursAt(Marker, y, i)
    ensures HeaderPath(HeaderLine(x, y) + "\r") == Some(y)
  {
    var line := HeaderLine(x, y);
    var line' := line + "\r";
    var j := |HeaderLead| + |x|;
    HeaderLineMatches(x, y);
    assert line'[..|line|] == line;
    assert line'[j..j + |Marker|] == line[j..j + |Marker|];
    assert line'[..|HeaderLead|] == line[..|HeaderLead|];
    assert MatchAt(line', 0, j, |line|);
    HeaderMatchIsLeftmostGreedy(line', 0, j, |line|);
    var (k', j', e') := HeaderMatch(line').value;
    assert e' <= |line| by {
      assert line'[|line|] == '\r';
    }
    if j' > j {
      assert line'[j'..j' + |Marker|] == line[j'..j' + |Marker|];
      HeaderLineLastMarker(x, y, j');
    }
    assert k' == 0 && j' == j && e' == |line|;
    assert line'[j + |Marker|..e'] == line[j + |Marker|..];
  }

  // ---------------------------------------------------------------------
  // Collecting the paths of all header lines

  /** What one line contributes: its path if it starts with `diff --git` and matches. */
  function LineEntry(line: string): (r: seq<string>)
    ensures |r| <= 1
    ensures |r| == 1 <==> IsPrefix(HeaderPrefix, line) && HeaderPath(line).Some?
    ensures |r| == 1 ==> r[0] == HeaderPath(line).value
  {
    if IsPrefix(HeaderPrefix, line) then
      match HeaderPath(line)
      case None => []
      case Some(path) => [path]
    else []
  }

  /** The paths of `lines`, in line order. */
  function Collect(lines: seq<string>): (r: seq<string>)
    decreases |lines|
  {
    if |lines| == 0 then [] else LineEntry(lines[0]) + Collect(lines[1..])
  }

  /** The number of lines starting with `diff --git`. */
  function HeaderLines(lines: seq<string>): nat
    decreases |lines|
  {
    if |lines| == 0 then 0
    else (if IsPrefix(HeaderPrefix, lines[0]) then 1 else 0) + HeaderLines(lines[1..])
  }

  /** Collecting distributes over concatenation of the line lists: order and duplicates are kept. */
  lemma {:induction false} CollectAppend(xs: seq<string>, ys: seq<string>)
    ensures Collect(xs + ys) == Collect(xs) + Collect(ys)
    decreases |xs|
  {
    if |xs| > 0 {
      assert (xs + ys)[0] == xs[0];
      assert (xs + ys)[1..] == xs[1..] + ys;
      CollectAppend(xs[1..], ys);
      assert Collect(xs + ys) == LineEntry(xs[0]) + (Collect(xs[1..]) + Collect(ys));
    } else {
      assert xs + ys == ys;
    }
  }

  /** At most one entry per header line. */
  lemma {:induction false} CollectBound(lines: seq<string>)
    ensures |Collect(lines)| <= HeaderLines(lines)
    decreases |lines|
  {
    if |lines| > 0 {
      CollectBound(lines[1..]);
    }
  }

  /** `extractFilesFromDiff(diff)`. */
  function ExtractFiles(diff: string): (r: seq<string>)
    ensures |r| <= HeaderLines(Split(diff, '\n'))
  {
    CollectBound(Split(diff, '\n'));
    Collect(Split(diff, '\n'))
  }

  /** Without any `diff --git` line there are no entries; in particular for the empty diff. */
  lemma NoHeaderNoFiles(diff: string)
    requires HeaderLines(Split(diff, '\n')) == 0
    ensures ExtractFiles(diff) == []
  {
  }

  lemma EmptyDiffNoFiles()
    ensures ExtractFiles("") == []
  {
    assert Split("", '\n') == [""];
  }

  /** The entries of two diffs joined by a line break are those of the first, then those of the second. */
  lemma ExtractFilesAppend(a: string, b: string)
    ensures ExtractFiles(a + "\n" + b) == ExtractFiles(a) + ExtractFiles(b)
  {
    SplitAppend(a, b, '\n');
    assert a + "\n" + b == a + ['\n'] + b;
    CollectAppend(Split(a, '\n'), Split(b, '\n'));
  }

  /** A single line contributes exactly its own entry. */
  lemma ExtractFilesLine(line: string)
    requires '\n' !in line
    ensures ExtractFiles(line) == LineEntry(line)
  {
    SplitNoSeparator(line, '\n');
    assert Collect([line]) == LineEntry(line) + Collect([]);
  }
}

=== FILE: http.dfy ===
/**
  The requests the extension issues and the replies it may get back, as
  data. A `fetch` either rejects (the network failed) or yields a response
  with a status, a status text, and a body that can be read as text or
  parsed as JSON; both readings may fail, and a failed JSON parse is
  modelled by the message of the `SyntaxError` it throws.
 */
module Http {
  import opened Js

  /** A header value: plain text, or `Basic ` followed by the base64 of `user:password`. */
  datatype HeaderValue = Plain(text: string) | Basic(user: string, password: string)

  datatype Header = Header(name: string, value: HeaderValue)

  /** The JSON body of a Gemini `generateContent` call: the prompt and the integer generation settings. */
  datatype Payload = NoPayload | Generate(prompt: string, topK: nat, maxOutputTokens: nat)

  datatype Verb = Get | Post

  datatype Request = Request(verb: Verb, url: string, headers: seq<Header>, payload: Payload)

  /** A response whose JSON body, if it parses, is a `J`. */
  datatype Response<J> = Response(status: nat, statusText: string, text: Result<string>, json: Result<J>)

  /** The outcome of one `fetch`. */
  datatype Reply<J> = NetworkError(message: string) | Answered(response: Response<J>)

  /** `response.ok`: a status in the range 200 to 299. */
  predicate IsOk(status: nat) {
    200 <= status <= 299
  }

  /** `headers[name]`, if the request carries that header. */
  function HeaderNamed(headers: seq<Header>, name: string): (r: Option<HeaderValue>)
    ensures r.None? <==> forall i :: 0 <= i < |headers| ==> headers[i].name != name
    ensures r.Some? ==> exists i :: 0 <= i < |headers| && headers[i] == Header(name, r.value)
    decreases |headers|
  {
    if |headers| == 0 then None
    else if headers[0].name == name then Some(headers[0].value)
    else
      var r := HeaderNamed(headers[1..], name);
      assert forall i :: 1 <= i < |headers| ==> headers[i] == headers[1..][i - 1];
      r
  }
}

=== FILE: js.dfy ===
/**
  Small vocabulary shared by every module: optional values (JavaScript's
  `undefined`), operations that either yield a value or throw an `Error`
  (only the error's `message` is observable to callers), and the
  truthiness test the extension applies to optional strings.
 */
module Js {

  /** A value that may be `undefined` (or `null`). */
  datatype Option<+T> = None | Some(value: T)

  /** The outcome of a call that may throw: the thrown `Error` is modelled by its message. */
  datatype Result<+T> = Ok(value: T) | Err(message: string) {
    predicate IsFailure() { Err? }

    function PropagateFailure<U>(): Result<U>
      requires Err?
    {
      Err(message)
    }

    function Extract(): T
      requires Ok?
    {
      value
    }
  }

  /** JavaScript truthiness of a possibly-undefined string: defined and non-empty. */
  predicate Truthy(s: Option<string>) {
    s.Some? && s.value != ""
  }

  /** `s || fallback` for a possibly-undefined string. */
  function OrElse(s: Option<string>, fallback: string): (r: string)
    ensures Truthy(s) ==> r == s.value
    ensures !Truthy(s) ==> r == fallback
  {
    if Truthy(s) then s.value else fallback
  }

  /** `String(s)` for a possibly-undefined string, as template literals and `replace` apply it. */
  function Stringify(s: Option<string>): (r: string)
    ensures s.Some? ==> r == s.value
    ensures s.None? ==> r == "undefined"
  {
    match s
    case Some(v) => v
    case None => "undefined"
  }
}

=== FILE: popup.dfy ===
/**
  `popup.js`: the chat panel. Its state is the in-memory history, the
  `isProcessing` flag, the URL input and the store; each handler is a
  transition of that state. Rendering is not modelled: a shown message is
  its entry in the history.

  `Date.now()` is a parameter of every transition that records a message.
 */
module Popup {
  import opened Js
  import opened Text
  import opened Config
  import opened PrUrl
  import opened Storage
  import opened Background

  datatype PopupState = PopupState(history: seq<ChatEntry>, processing: bool, input: string, store: Store)

  /** The stored history is the most recent part of the in-memory one. */
  predicate Synced(st: PopupState) {
    GetChatHistory(st.store) == LastN(st.history, MaxChatHistory)
  }

  /** The credentials as stored: what the popup never changes. */
  function Credentials(store: Store): (Option<string>, Option<string>, Option<string>) {
    (GetGeminiApiKey(store), GetBitbucketEmail(store), GetBitbucketToken(store))
  }

  /**
    `showMessage(role, content, isError)`: exactly one entry is appended to
    the history and the history is saved, so the store holds its last
    `MaxChatHistory` entries; nothing else changes.
   */
  function ShowMessage(st: PopupState, role: Role, content: string, isError: bool, now: int): (r: PopupState)
    ensures r.history == st.history + [ChatEntry(role, content, isError, now)]
    ensures Synced(r)
    ensures r.processing == st.processing && r.input == st.input
    ensures Credentials(r.store) == Credentials(st.store)
  {
    var history := st.history + [ChatEntry(role, content, isError, now)];
    st.(history := history, store := SaveChatHistory(st.store, history))
  }

  /**
    For a synced popup, what a new message leaves in the store depends only
    on what was stored before: the last `MaxChatHistory` entries of the
    stored history followed by the new entry.
   */
  lemma ShowMessageFromStored(st: PopupState, role: Role, content: string, isError: bool, now: int)
    requires Synced(st)
    ensures GetChatHistory(ShowMessage(st, role, content, isError, now).store)
         == LastN(GetChatHistory(st.store) + [ChatEntry(role, content, isError, now)], MaxChatHistory)
  {
    LastNAppend(st.history, [ChatEntry(role, content, isError, now)], MaxChatHistory);
  }

  /**
    `showError(message)`: the history grows by exactly one assistant entry
    marked as an error; the store follows it and nothing else changes.
   */
  function ShowError(st: PopupState, message: string, now: int): (r: PopupState)
    ensures r.history == st.history + [ChatEntry(Assistant, message, true, now)]
    ensures Synced(r)
    ensures r.processing == st.processing && r.input == st.input
    ensures Credentials(r.store) == Credentials(st.store)
  {
    ShowMessage(st, Assistant, message, true, now)
  }

  // ---------------------------------------------------------------------
  // The analysis message

  /** The lines after the analysis: a rule, the pull request link, the author. */
  function FooterLines(pr: PrSummary): seq<string> {
    ["---", "", "**PR:** [" + Stringify(pr.title) + "](" + pr.url + ")", "**Author:** " + pr.author, "", ""]
  }

  /**
    `formatRCAMessage(data)`: the analysis, then the footer lines, each
    ended by a line break; an undefined title reads `undefined`.
   */
  function FormatRcaMessage(data: RcaData): (m: string)
    ensures IsPrefix(data.rca, m) && |m| > |data.rca|
    ensures m[|data.rca|..] == Join(FooterLines(data.prData), '\n')
  {
    var pr := data.prData;
    var m := data.rca + "---\n\n" + "**PR:** [" + Stringify(pr.title) + "](" + pr.url + ")\n"
             + "**Author:** " + pr.author + "\n\n";
    FooterJoin(pr);
    assert m == data.rca + Join(FooterLines(pr), '\n');
    assert m[..|data.rca|] == data.rca;
    m
  }

  lemma FooterJoin(pr: PrSummary)
    ensures Join(FooterLines(pr), '\n')
         == "---\n\n" + "**PR:** [" + Stringify(pr.title) + "](" + pr.url + ")\n" + "**Author:** " + pr.author + "\n\n"
  {
    var link := "**PR:** [" + Stringify(pr.title) + "](" + pr.url + ")";
    var author := "**Author:** " + pr.author;
    FooterNested(link, author);
    assert FooterLines(pr) == ["---", "", link, author, "", ""];
  }

  /** The footer lines joined, one separator at a time. */
  lemma FooterNested(link: string, author: string)
    ensures Join(["---", "", link, author, "", ""], '\n')
         == "---\n\n" + link + "\n" + author + "\n\n"
  {
    var nl := ['\n'];
    assert ["---", "", link, author, "", ""] == ["---"] + ([""] + ([link] + ([author] + ([""] + [""]))));
    JoinCons("", [""], '\n');
    JoinCons(author, [""] + [""], '\n');
    JoinCons(link, [author] + ([""] + [""]), '\n');
    JoinCons("", [link] + ([author] + ([""] + [""])), '\n');
    JoinCons("---", [""] + ([link] + ([author] + ([""] + [""]))), '\n');
    assert "---" + nl + ("" + nl + (link + nl + (author + nl + ("" + nl + ""))))
        == "---\n\n" + link + "\n" + author + "\n\n";
  }

  /**
    When the title, URL and author hold no line break, the footer reads
    back as its lines: the rule, a blank line, the link, the author, and
    the two blank lines the closing breaks leave.
   */
  lemma FooterSplits(pr: PrSummary)
    requires '\n' !in Stringify(pr.title) && '\n' !in pr.url && '\n' !in pr.author
    ensures Split(Join(FooterLines(pr), '\n'), '\n') == FooterLines(pr)
  {
    var xs := FooterLines(pr);
    forall k | 0 <= k < |xs| ensures '\n' !in xs[k] {
    }
    SplitJoin(xs, '\n');
  }

  // ---------------------------------------------------------------------
  // Sending a URL

  const InvalidUrlMessage: string :=
    "Invalid Bitbucket PR URL. Please provide a valid pull request URL like: https://bitbucket.org/workspace/repo/pull-requests/123"
  const RcaFallback: string := "Failed to generate RCA. Please try again."
  const ErrorOccurred: string := "An error occurred: "
  /** The `TypeError` reading `success` of an undefined response throws. */
  const NoResponseError: string := "Cannot read properties of undefined (reading 'success')"

  /** How `chrome.runtime.sendMessage` settles: an answer, no answer, or a rejection. */
  datatype Delivery = Replied(outcome: Result<RcaData>) | NoReply | SendFailed(message: string)

  /**
    The awaited value as the popup reads it: no answer at all, or an answer
    read through `response.success`, then `response.data` or
    `response.error`. A wrapped outcome reads back as itself.
   */
  function Received(answer: Option<Answer>): (d: Delivery)
    ensures d.NoReply? <==> answer.None?
    ensures forall r: Result<RcaData> :: answer == Some(Wrap(r, x => RcaAnswer(x))) ==> d == Replied(r)
  {
    match answer
    case None => NoReply
    case Some(a) => Replied(UnwrapRca(a))
  }

  /**
    The message shown once the request settles, and whether it is an error:
    an error exactly when the request did not succeed; never empty; a
    success shows the analysis first; a failure answer shows its own text
    (or the fallback when that is empty); a missing answer or a rejected
    send shows `An error occurred: ` and the thrown message.
   */
  function Outcome(delivery: Delivery): (r: (string, bool))
    ensures !r.1 <==> delivery.Replied? && delivery.outcome.Ok?
    ensures r.0 != ""
    ensures delivery.Replied? && delivery.outcome.Ok? ==>
      IsPrefix(delivery.outcome.value.rca, r.0) && r.0 == FormatRcaMessage(delivery.outcome.value)
    ensures delivery.Replied? && delivery.outcome.Err? ==>
      r.0 == if delivery.outcome.message == "" then RcaFallback else delivery.outcome.message
    ensures !delivery.Replied? ==>
      IsPrefix(ErrorOccurred, r.0)
      && r.0[|ErrorOccurred|..] == if delivery.NoReply? then NoResponseError else delivery.message
  {
    match delivery
    case Replied(Ok(data)) => (FormatRcaMessage(data), false)
    case Replied(Err(e)) => (OrElse(Some(e), RcaFallback), true)
    case NoReply =>
      var m := ErrorOccurred + NoResponseError;
      assert m[..|ErrorOccurred|] == ErrorOccurred && m[|ErrorOccurred|..] == NoResponseError;
      (m, true)
    case SendFailed(message) =>
      var m := ErrorOccurred + message;
      assert m[..|ErrorOccurred|] == ErrorOccurred && m[|ErrorOccurred|..] == message;
      (m, true)
  }

  /**
    What the popup shows for the background's answer to `generateRCA`: the
    formatted analysis for a success, and the handler's error text (or the
    fallback when it is empty) for a failure.
   */
  lemma ShownOutcome(r: Result<RcaData>)
    ensures Outcome(Received(Some(Wrap(r, x => RcaAnswer(x)))))
         == if r.Ok? then (FormatRcaMessage(r.value), false) else (OrElse(Some(r.message), RcaFallback), true)
  {
    WrapRoundTrip(r);
  }

  /**
    The first half of `handleSendMessage()`, up to the awaited
    `sendMessage`. An empty input or a pending request changes nothing; an
    invalid URL adds one error entry and sends nothing; a valid URL clears
    the input, records the user's entry, marks the popup as processing and
    sends one `generateRCA` message.
   */
  function SendUrl(st: PopupState, sentAt: int): (out: (PopupState, seq<Message>))
    ensures var url := Trim(st.input);
      url == "" || st.processing ==> out == (st, [])
    ensures var url := Trim(st.input);
      url != "" && !st.processing && !IsValidPrUrl(url) ==>
        && out.1 == []
        && out.0.history == st.history + [ChatEntry(Assistant, InvalidUrlMessage, true, sentAt)]
        && out.0.processing == st.processing && out.0.input == st.input
    ensures var url := Trim(st.input);
      url != "" && !st.processing && IsValidPrUrl(url) ==>
        && out.1 == [GenerateRcaMessage(url)]
        && out.0.history == st.history + [ChatEntry(User, url, false, sentAt)]
        && out.0.processing && out.0.input == ""
    ensures Synced(st) ==> Synced(out.0)
    ensures Credentials(out.0.store) == Credentials(st.store)
  {
    var url := Trim(st.input);
    if url == "" || st.processing then (st, [])
    else if !IsValidPrUrl(url) then (ShowError(st, InvalidUrlMessage, sentAt), [])
    else
      var cleared := st.(input := "");
      (ShowMessage(cleared, User, url, false, sentAt).(processing := true), [GenerateRcaMessage(url)])
  }

  /**
    The second half, once the request settles: the outcome is recorded as
    one more entry, and processing ends whatever happened.
   */
  function Settle(st: PopupState, delivery: Delivery, settledAt: int): (r: PopupState)
    ensures r.history == st.history + [ChatEntry(Assistant, Outcome(delivery).0, Outcome(delivery).1, settledAt)]
    ensures !r.processing && r.input == st.input
    ensures Synced(r)
    ensures Credentials(r.store) == Credentials(st.store)
  {
    var (content, isError) := Outcome(delivery);
    ShowMessage(st, Assistant, content, isError, settledAt).(processing := false)
  }

  /**
    `handleSendMessage()` when nothing else happens while the request is
    pending: the two halves in sequence. Processing ends false, the stored
    history stays synced and the credentials untouched.
   */
  function HandleSendMessage(st: PopupState, delivery: Delivery, sentAt: int, settledAt: int)
    : (out: (PopupState, seq<Message>))
    ensures var url := Trim(st.input);
      url == "" || st.processing ==> out == (st, [])
    ensures var url := Trim(st.input);
      url != "" && !st.processing && !IsValidPrUrl(url) ==>
        out == (ShowError(st, InvalidUrlMessage, sentAt), [])
    ensures var url := Trim(st.input);
      url != "" && !st.processing && IsValidPrUrl(url) ==>
        && out.1 == [GenerateRcaMessage(url)]
        && out.0.history == st.history + [ChatEntry(User, url, false, sentAt),
                                          ChatEntry(Assistant, Outcome(delivery).0, Outcome(delivery).1, settledAt)]
        && !out.0.processing && out.0.input == ""
    ensures Synced(st) ==> Synced(out.0)
    ensures Credentials(out.0.store) == Credentials(st.store)
  {
    var (pending, sent) := SendUrl(st, sentAt);
    if sent == [] then (pending, []) else (Settle(pending, delivery, settledAt), sent)
  }

  /**
    While a request is pending every further send is ignored, whatever the
    input field then holds.
   */
  lemma ProcessingBlocksSend(st: PopupState, sentAt: int, input: string, again: int)
    requires SendUrl(st, sentAt).1 != []
    ensures var pending := SendUrl(st, sentAt).0.(input := input);
      SendUrl(pending, again) == (pending, [])
  {
  }

  /**
    The clear button stays enabled during a request: clearing while it is
    pending empties the history, and the settled outcome then becomes the
    only entry, in memory and in the store.
   */
  lemma ClearDuringRequest(st: PopupState, sentAt: int, delivery: Delivery, settledAt: int)
    requires SendUrl(st, sentAt).1 != []
    ensures var settled := Settle(HandleClearHistory(SendUrl(st, sentAt).0, true), delivery, settledAt);
      var entry := ChatEntry(Assistant, Outcome(delivery).0, Outcome(delivery).1, settledAt);
      settled.history == [entry] && GetChatHistory(settled.store) == [entry]
  {
  }

  /** The message the popup sends is the trimmed input, which validation accepted. */
  lemma SentUrlIsValid(st: PopupState, sentAt: int)
    ensures forall m :: m in SendUrl(st, sentAt).1 ==>
      m == GenerateRcaMessage(Trim(st.input)) && IsValidPrUrl(m.url) && Bare(m.url)
  {
  }

  // ---------------------------------------------------------------------
  // Loading, setup check and clearing

  /** `loadChatHistory()`: the in-memory history becomes the stored one. */
  function LoadChatHistory(st: PopupState): (r: PopupState)
    ensures r.history == GetChatHistory(st.store)
    ensures r.store == st.store && r.processing == st.processing && r.input == st.input
  {
    st.(history := GetChatHistory(st.store))
  }

  /** A history loaded from a store that holds at most `MaxChatHistory` entries is synced. */
  lemma LoadedIsSynced(st: PopupState)
    requires |GetChatHistory(st.store)| <= MaxChatHistory
    ensures Synced(LoadChatHistory(st))
  {
  }

  /** Whatever the popup saves, the stored history stays within the cap. */
  lemma SavedHistoryIsCapped(st: PopupState, role: Role, content: string, isError: bool, now: int)
    ensures |GetChatHistory(ShowMessage(st, role, content, isError, now).store)| <= MaxChatHistory
  {
  }

  const SetupRequired: string :=
    "\U{2699}\U{FE0F} **Setup Required**: Please configure your Gemini API key in settings to start generating RCA reports."

  /** `checkApiKeyStatus()`: a setup reminder, marked as an error, when no key is stored. */
  function CheckApiKeyStatus(st: PopupState, now: int): (r: PopupState)
    ensures Truthy(GetGeminiApiKey(st.store)) ==> r == st
    ensures !Truthy(GetGeminiApiKey(st.store)) ==>
      r.history == st.history + [ChatEntry(Assistant, SetupRequired, true, now)]
    ensures Synced(st) ==> Synced(r)
  {
    if Truthy(GetGeminiApiKey(st.store)) then st else ShowMessage(st, Assistant, SetupRequired, true, now)
  }

  /**
    `handleClearHistory()`: when confirmed, the in-memory history is
    emptied and the stored history removed; the credentials are untouched.
    Declining changes nothing.
   */
  function HandleClearHistory(st: PopupState, confirmed: bool): (r: PopupState)
    ensures !confirmed ==> r == st
    ensures confirmed ==> r.history == [] && Get(r.store, ChatHistoryKey) == None && Synced(r)
    ensures Credentials(r.store) == Credentials(st.store)
  {
    if !confirmed then st else st.(history := [], store := ClearChatHistory(st.store))
  }
}

=== FILE: pr_url.dfy ===
/**
  The pull-request URL recogniser of `utils/bitbucket.js`: the pattern
  `^https?://bitbucket\.org/([^/]+)/([^/]+)/pull-requests/(\d+)`,
  anchored at the start only, written out by hand, and the parse of its
  three captures into a `PrInfo`.
 */
module PrUrl {
  import opened Js
  import opened Text

  /** The parsed pull-request reference: the three captures and the URL as given. */
  datatype PrInfo = PrInfo(workspace: string, repoSlug: string, prId: string, url: string)

  const Host: string := "://bitbucket.org/"
  /** The literal between the repository capture's closing slash and the id. */
  const Kind: string := "pull-requests/"

  predicate NotSlash(c: char) {
    c != '/'
  }

  /** A `[^/]+` capture: non-empty, without a slash. */
  predicate Segment(s: string) {
    |s| > 0 && forall i :: 0 <= i < |s| ==> s[i] != '/'
  }

  /** A `\d+` capture: non-empty, ASCII digits only. */
  predicate Digits(s: string) {
    |s| > 0 && forall i :: 0 <= i < |s| ==> IsDigit(s[i])
  }

  /**
    Reference meaning of the pattern after its `https?://bitbucket.org/`
    lead-in: the text starts with `workspace/repo/pull-requests/id`, the
    captures have their classes, and the digit run is maximal (greedy
    `\d+`). Nothing is required of the text after the match.
   */
  predicate RestMatches(a: string, workspace: string, repo: string, id: string) {
    var lead := workspace + "/" + repo + "/" + Kind + id;
    && IsPrefix(lead, a)
    && Segment(workspace) && Segment(repo) && Digits(id)
    && (|a| == |lead| || !IsDigit(a[|lead|]))
  }

  /** `^https?://bitbucket\.org/`: the lead-in for the given scheme, in lower case. */
  predicate HasLeadIn(url: string, scheme: string) {
    (scheme == "http" || scheme == "https") && IsPrefix(scheme + Host, url)
  }

  /** The pattern matches `url` with these three captures. */
  predicate Matches(url: string, workspace: string, repo: string, id: string) {
    || (HasLeadIn(url, "http") && RestMatches(url[|"http" + Host|..], workspace, repo, id))
    || (HasLeadIn(url, "https") && RestMatches(url[|"https" + Host|..], workspace, repo, id))
  }

  /** The length of the `https?://bitbucket.org/` lead-in at the start of `url`, if present. */
  function LeadIn(url: string): (n: Option<nat>)
    ensures n.Some? ==> n.value <= |url|
  {
    if IsPrefix("https" + Host, url) then Some(|"https" + Host|)
    else if IsPrefix("http" + Host, url) then Some(|"http" + Host|)
    else None
  }

  /** A URL cannot start with both lead-ins. */
  lemma LeadInsExclusive(url: string)
    ensures HasLeadIn(url, "http") ==> !HasLeadIn(url, "https")
  {
    if HasLeadIn(url, "http") {
      assert url[4] == ("http" + Host)[4] == ':';
      assert ("https" + Host)[4] == 's';
    }
  }

  /** A span pinned down by its two defining facts. */
  lemma SpanIs(s: string, p: char -> bool, k: nat)
    requires k <= |s|
    requires forall i :: 0 <= i < k ==> p(s[i])
    requires k == |s| || !p(s[k])
    ensures Span(s, p) == k
  {
  }

  /** `[^/]+/`: a greedy slash-free segment and the text after its closing slash. */
  function CutSegment(a: string): (r: Option<(string, string)>)
    ensures r.Some? ==> Segment(r.value.0) && a == r.value.0 + "/" + r.value.1
  {
    var w := Span(a, NotSlash);
    if w == 0 || w == |a| then None
    else
      assert a == a[..w] + "/" + a[w + 1..] by {
        assert a == a[..w] + [a[w]] + a[w + 1..];
      }
      Some((a[..w], a[w + 1..]))
  }

  /** A slash-terminated segment is always the one `CutSegment` finds. */
  lemma CutSegmentComplete(a: string, seg: string, rest: string)
    requires Segment(seg) && a == seg + "/" + rest
    ensures CutSegment(a) == Some((seg, rest))
  {
    SpanIs(a, NotSlash, |seg|);
    assert a[..|seg|] == seg;
    assert a[|seg| + 1..] == rest;
  }

  /** `\d+` (greedy): a maximal non-empty digit run at the start of `c` and what follows it. */
  function CutDigits(c: string): (r: Option<(string, string)>)
    ensures r.Some? ==> Digits(r.value.0) && c == r.value.0 + r.value.1
    ensures r.Some? ==> r.value.1 == [] || !IsDigit(r.value.1[0])
  {
    var d := Span(c, IsDigit);
    if d == 0 then None
    else
      assert c == c[..d] + c[d..];
      Some((c[..d], c[d..]))
  }

  /** A maximal digit run is always the one `CutDigits` finds. */
  lemma CutDigitsComplete(c: string, id: string, rest: string)
    requires Digits(id) && c == id + rest && (rest == [] || !IsDigit(rest[0]))
    ensures CutDigits(c) == Some((id, rest))
  {
    SpanIs(c, IsDigit, |id|);
    assert c[..|id|] == id;
  }

  /** The captures found piece by piece spell out the start of the text. */
  lemma RestMatchesOfParts(a: string, workspace: string, b: string, repo: string, b': string, id: string, rest: string)
    requires a == workspace + "/" + b && Segment(workspace)
    requires b == repo + "/" + b' && Segment(repo)
    requires IsPrefix(Kind, b') && b'[|Kind|..] == id + rest
    requires Digits(id) && (rest == [] || !IsDigit(rest[0]))
    ensures RestMatches(a, workspace, repo, id)
  {
    assert b' == Kind + (id + rest) by {
      assert b' == b'[..|Kind|] + b'[|Kind|..];
    }
    var lead := workspace + "/" + repo + "/" + Kind + id;
    assert a == lead + rest;
    assert a[..|lead|] == lead;
  }

  /** The pattern after its lead-in: the three captures of `a`, or no match. */
  function MatchRest(a: string): (m: Option<(string, string, string)>)
    ensures m.Some? ==> RestMatches(a, m.value.0, m.value.1, m.value.2)
  {
    match CutSegment(a)
    case None => None
    case Some((ws, b)) =>
      match CutSegment(b)
      case None => None
      case Some((repo, b')) =>
        if !IsPrefix(Kind, b') then None
        else
          match CutDigits(b'[|Kind|..])
          case None => None
          case Some((id, rest)) =>
            RestMatchesOfParts(a, ws, b, repo, b', id, rest);
            Some((ws, repo, id))
  }

  /** Every decomposition the pattern admits after the lead-in is the one `MatchRest` finds. */
  lemma MatchRestComplete(a: string, workspace: string, repo: string, id: string)
    requires RestMatches(a, workspace, repo, id)
    ensures MatchRest(a) == Some((workspace, repo, id))
  {
    var lead := workspace + "/" + repo + "/" + Kind + id;
    var rest := a[|lead|..];
    var b' := Kind + (id + rest);
    var b := repo + "/" + b';
    assert a == workspace + "/" + b by {
      assert a == a[..|lead|] + rest;
    }
    CutSegmentComplete(a, workspace, b);
    CutSegmentComplete(b, repo, b');
    assert b'[..|Kind|] == Kind;
    assert b'[|Kind|..] == id + rest;
    CutDigitsComplete(id + rest, id, rest);
  }

  /** `url.match(BITBUCKET_PR_PATTERN)`: the three captures, or no match. */
  function MatchPattern(url: string): (m: Option<(string, string, string)>)
    ensures m.Some? ==> LeadIn(url).Some? && m == MatchRest(url[LeadIn(url).value..])
  {
    match LeadIn(url)
    case None => None
    case Some(n) => MatchRest(url[n..])
  }

  /** What `MatchPattern` reports is a way the pattern matches. */
  lemma MatchPatternSound(url: string)
    requires MatchPattern(url).Some?
    ensures Matches(url, MatchPattern(url).value.0, MatchPattern(url).value.1, MatchPattern(url).value.2)
  {
  }

  /** Every way the pattern matches `url` is the one `MatchPattern` reports. */
  lemma MatchPatternComplete(url: string, workspace: string, repo: string, id: string)
    requires Matches(url, workspace, repo, id)
    ensures MatchPattern(url) == Some((workspace, repo, id))
  {
    LeadInsExclusive(url);
    MatchRestComplete(url[LeadIn(url).value..], workspace, repo, id);
  }

  /**
    `parsePRUrl(url)`: null unless the URL starts with the lead-in;
    otherwise the three captures in order and the URL unchanged.
   */
  function ParsePrUrl(url: string): (r: Option<PrInfo>)
    ensures r.Some? ==> r.value.url == url
    ensures r.Some? ==> LeadIn(url).Some?
  {
    match MatchPattern(url)
    case None =>
      None
    case Some((ws, repo, id)) =>
      Some(PrInfo(ws, repo, id, url))
  }

  /**
    `parsePRUrl` returns null exactly when the pattern does not match, and
    otherwise the one match.
   */
  lemma ParseSoundComplete(url: string, workspace: string, repo: string, id: string)
    ensures Matches(url, workspace, repo, id) <==> ParsePrUrl(url) == Some(PrInfo(workspace, repo, id, url))
    ensures ParsePrUrl(url).Some? ==> Matches(url, ParsePrUrl(url).value.workspace, ParsePrUrl(url).value.repoSlug, ParsePrUrl(url).value.prId)
  {
    if Matches(url, workspace, repo, id) {
      MatchPatternComplete(url, workspace, repo, id);
    }
    if ParsePrUrl(url).Some? {
      MatchPatternSound(url);
    }
  }

  /** `isValidPRUrl(url)`: the same pattern used as a test. */
  function IsValidPrUrl(url: string): (ok: bool)
    ensures ok <==> ParsePrUrl(url).Some?
  {
    MatchPattern(url).Some?
  }

  /** A URL is valid exactly when the pattern matches it in some way. */
  lemma ValidIffMatches(url: string)
    ensures IsValidPrUrl(url) <==> exists ws, repo, id :: Matches(url, ws, repo, id)
  {
    if exists ws, repo, id :: Matches(url, ws, repo, id) {
      var ws, repo, id :| Matches(url, ws, repo, id);
      MatchPatternComplete(url, ws, repo, id);
    }
    if IsValidPrUrl(url) {
      MatchPatternSound(url);
    }
  }

  /** The three captures are unique: a URL matches in at most one way. */
  lemma MatchUnique(url: string, w1: string, r1: string, i1: string, w2: string, r2: string, i2: string)
    requires Matches(url, w1, r1, i1) && Matches(url, w2, r2, i2)
    ensures w1 == w2 && r1 == r2 && i1 == i2
  {
    MatchPatternComplete(url, w1, r1, i1);
    MatchPatternComplete(url, w2, r2, i2);
  }

  /** A lead-in at the start of `url` is still there whatever follows. */
  lemma LeadInExtension(url: string, ext: string)
    requires LeadIn(url).Some?
    ensures LeadIn(url + ext) == LeadIn(url)
  {
    var u := url + ext;
    if IsPrefix("https" + Host, url) {
      assert u[..|"https" + Host|] == url[..|"https" + Host|];
    } else {
      assert u[..|"http" + Host|] == url[..|"http" + Host|];
      LeadInsExclusive(u);
    }
  }

  /** Digits appended to a digit run leave a digit run. */
  lemma DigitsExtend(id: string, more: string)
    requires Digits(id) && forall i :: 0 <= i < |more| ==> IsDigit(more[i])
    ensures Digits(id + more)
  {
    forall i | 0 <= i < |id + more| ensures IsDigit((id + more)[i]) {
      if i >= |id| {
        assert (id + more)[i] == more[i - |id|];
      }
    }
  }

  /** A text that is exactly a match, extended: the id absorbs the digits the extension starts with. */
  lemma WholeMatchExtension(workspace: string, repo: string, id: string, ext: string)
    requires Segment(workspace) && Segment(repo) && Digits(id)
    ensures var lead := workspace + "/" + repo + "/" + Kind + id;
      RestMatches(lead + ext, workspace, repo, id + ext[..Span(ext, IsDigit)])
  {
    var lead := workspace + "/" + repo + "/" + Kind + id;
    var k := Span(ext, IsDigit);
    var id' := id + ext[..k];
    var lead' := workspace + "/" + repo + "/" + Kind + id';
    assert lead' == lead + ext[..k];
    assert lead + ext == lead' + ext[k..] by {
      assert ext == ext[..k] + ext[k..];
    }
    assert (lead + ext)[..|lead'|] == lead';
    DigitsExtend(id, ext[..k]);
    if |lead + ext| != |lead'| {
      assert (lead + ext)[|lead'|] == ext[k];
    }
  }

  /** A match followed by more text is not affected by what is appended. */
  lemma PartialMatchExtension(a: string, ext: string, workspace: string, repo: string, id: string)
    requires RestMatches(a, workspace, repo, id)
    requires |a| != |workspace + "/" + repo + "/" + Kind + id|
    ensures RestMatches(a + ext, workspace, repo, id)
  {
    var lead := workspace + "/" + repo + "/" + Kind + id;
    assert (a + ext)[..|lead|] == a[..|lead|];
    assert (a + ext)[|lead|] == a[|lead|];
  }

  /**
    A match after the lead-in survives any extension of the text: with the
    same captures when text followed the match, and otherwise with the id
    lengthened by the digits the extension starts with.
   */
  lemma RestMatchesExtension(a: string, ext: string, workspace: string, repo: string, id: string)
    requires RestMatches(a, workspace, repo, id)
    ensures var lead := workspace + "/" + repo + "/" + Kind + id;
      RestMatches(a + ext, workspace, repo, if |a| == |lead| then id + ext[..Span(ext, IsDigit)] else id)
  {
    var lead := workspace + "/" + repo + "/" + Kind + id;
    if |a| == |lead| {
      assert a == lead;
      WholeMatchExtension(workspace, repo, id, ext);
    } else {
      PartialMatchExtension(a, ext, workspace, repo, id);
    }
  }

  /** Extending the text after the lead-in keeps the match and can only lengthen the id. */
  lemma MatchRestExtension(a: string, ext: string)
    requires MatchRest(a).Some?
    ensures MatchRest(a + ext).Some?
    ensures MatchRest(a + ext).value.0 == MatchRest(a).value.0
    ensures MatchRest(a + ext).value.1 == MatchRest(a).value.1
    ensures IsPrefix(MatchRest(a).value.2, MatchRest(a + ext).value.2)
    ensures (ext == [] || !IsDigit(ext[0])) ==> MatchRest(a + ext).value.2 == MatchRest(a).value.2
  {
    var (ws, repo, id) := MatchRest(a).value;
    var lead := ws + "/" + repo + "/" + Kind + id;
    var id' := if |a| == |lead| then id + ext[..Span(ext, IsDigit)] else id;
    RestMatchesExtension(a, ext, ws, repo, id);
    MatchRestComplete(a + ext, ws, repo, id');
    assert id'[..|id|] == id;
    if ext == [] || !IsDigit(ext[0]) {
      assert Span(ext, IsDigit) == 0;
      assert id' == id;
    }
  }

  /** `ParsePrUrl` read off the lead-in and the match after it. */
  lemma ParseViaRest(url: string, n: nat)
    requires LeadIn(url) == Some(n) && MatchRest(url[n..]).Some?
    ensures ParsePrUrl(url) == Some(PrInfo(MatchRest(url[n..]).value.0, MatchRest(url[n..]).value.1, MatchRest(url[n..]).value.2, url))
  {
  }

  /**
    The reference pattern on an extended URL: the same lead-in and the same
    workspace and repository match, with an id that extends the old one and
    equals it unless the extension starts with a digit.
   */
  lemma MatchesExtension(url: string, ext: string, workspace: string, repo: string, id: string) returns (id': string)
    requires Matches(url, workspace, repo, id)
    ensures Matches(url + ext, workspace, repo, id')
    ensures IsPrefix(id, id')
    ensures (ext == [] || !IsDigit(ext[0])) ==> id' == id
  {
    LeadInsExclusive(url);
    var scheme := if HasLeadIn(url, "https") then "https" else "http";
    var n := |scheme + Host|;
    assert HasLeadIn(url + ext, scheme) by {
      assert (url + ext)[..n] == url[..n];
    }
    var a := url[n..];
    assert (url + ext)[n..] == a + ext;
    RestMatchesExtension(a, ext, workspace, repo, id);
    var lead := workspace + "/" + repo + "/" + Kind + id;
    id' := if |a| == |lead| then id + ext[..Span(ext, IsDigit)] else id;
    assert id'[..|id|] == id;
    if ext == [] || !IsDigit(ext[0]) {
      assert Span(ext, IsDigit) == 0;
    }
  }

  /**
    The pattern is anchored at the start only: whatever follows a matching
    URL, the extended URL still matches with the same workspace and
    repository, and its id extends the old one; it is the same id unless
    the extension starts with a digit.
   */
  lemma ParseExtension(url: string, ext: string)
    requires ParsePrUrl(url).Some?
    ensures ParsePrUrl(url + ext).Some?
    ensures ParsePrUrl(url + ext).value.workspace == ParsePrUrl(url).value.workspace
    ensures ParsePrUrl(url + ext).value.repoSlug == ParsePrUrl(url).value.repoSlug
    ensures IsPrefix(ParsePrUrl(url).value.prId, ParsePrUrl(url + ext).value.prId)
    ensures (ext == [] || !IsDigit(ext[0])) ==> ParsePrUrl(url + ext).value.prId == ParsePrUrl(url).value.prId
  {
    var p := ParsePrUrl(url).value;
    ParseSoundComplete(url, p.workspace, p.repoSlug, p.prId);
    var id' := MatchesExtension(url, ext, p.workspace, p.repoSlug, p.prId);
    ParseSoundComplete(url + ext, p.workspace, p.repoSlug, id');
  }

  /** The help text's example URL: `https://bitbucket.org/workspace/repo/pull-requests/123`. */
  const ExampleUrl: string := "https" + Host + ExamplePath
  const ExamplePath: string := "workspace" + "/" + "repo" + "/" + Kind + "123"

  lemma ExampleLeadIn()
    ensures LeadIn(ExampleUrl) == Some(22)
  {
    assert ExampleUrl[..|"https" + Host|] == "https" + Host;
  }

  /** A text that is exactly a lead with well-formed captures matches with those captures. */
  lemma WholeLeadMatches(workspace: string, repo: string, id: string)
    requires Segment(workspace) && Segment(repo) && Digits(id)
    ensures RestMatches(workspace + "/" + repo + "/" + Kind + id, workspace, repo, id)
  {
    var a := workspace + "/" + repo + "/" + Kind + id;
    assert a[..|a|] == a;
  }

  lemma ExampleRest()
    ensures RestMatches(ExampleUrl[22..], "workspace", "repo", "123")
  {
    assert ExampleUrl[22..] == ExamplePath;
    assert Segment("workspace") && Segment("repo") && Digits("123");
    WholeLeadMatches("workspace", "repo", "123");
  }

  lemma ExampleParts()
    ensures LeadIn(ExampleUrl) == Some(22)
    ensures MatchRest(ExampleUrl[22..]) == Some(("workspace", "repo", "123"))
  {
    ExampleLeadIn();
    ExampleRest();
    MatchRestComplete(ExampleUrl[22..], "workspace", "repo", "123");
  }

  /** The example URL parses into its three parts. */
  lemma ParseExample()
    ensures ParsePrUrl(ExampleUrl) == Some(PrInfo("workspace", "repo", "123", ExampleUrl))
  {
    ExampleParts();
    ParseViaRest(ExampleUrl, 22);
  }
}

=== FILE: rca_generator.dfy ===
/**
  `utils/rca-generator.js`: diff truncation, response trimming, the
  rendering of the changed-file list, the assembly of the prompt from the
  template, the Gemini call with its response-shape checks and errors, and
  `generateRCA`, which ties them together.
 */
module RcaGenerator {
  import opened Js
  import opened Text
  import opened Config
  import opened Http
  import opened DiffFiles
  import opened Bitbucket

  // ---------------------------------------------------------------------
  // Truncation and trimming

  /** The diff budget `generateRCA` passes to `truncateDiff`. */
  const MaxDiffChars: nat := 8000
  const TruncationNote: string := "\n\n... (diff truncated for length)"

  /**
    `truncateDiff(diff, maxChars)`: the diff itself when it fits, else its
    first `maxChars` characters followed by the truncation note.
   */
  function TruncateDiff(diff: string, maxChars: nat): (r: string)
    ensures |diff| <= maxChars ==> r == diff
    ensures |diff| > maxChars ==> r == diff[..maxChars] + TruncationNote
    ensures IsPrefix(diff[..if |diff| <= maxChars then |diff| else maxChars], r)
    ensures |r| <= if |diff| <= maxChars then |diff| else maxChars + |TruncationNote|
  {
    if |diff| <= maxChars then
      assert diff[..|diff|] == diff;
      diff
    else
      var r := diff[..maxChars] + TruncationNote;
      assert r[..maxChars] == diff[..maxChars];
      r
  }

  /** Truncating a truncated diff changes nothing. */
  lemma TruncateIdempotent(diff: string, maxChars: nat)
    ensures TruncateDiff(TruncateDiff(diff, maxChars), maxChars) == TruncateDiff(diff, maxChars)
  {
    var r := TruncateDiff(diff, maxChars);
    if |diff| > maxChars {
      assert r[..maxChars] == diff[..maxChars];
    }
  }

  /**
    `formatRCA(rca)`: `rca.trim()`. The result is a bare stretch of the
    input with nothing but white space before and after it, so the interior
    is kept as it was; trimming it again changes nothing.
   */
  function FormatRca(rca: string): (r: string)
    ensures Trimmed(rca, r) && |r| <= |rca|
    ensures Trim(r) == r
  {
    TrimIdempotent(rca);
    TrimIsTrimmed(rca);
    Trim(rca)
  }

  // ---------------------------------------------------------------------
  // The changed-file list

  const NoFilesChanged: string := "No files changed"

  /** The no-files text holds neither a brace nor a dollar sign. */
  lemma NoFilesChangedIsPlain()
    ensures '{' !in NoFilesChanged && '$' !in NoFilesChanged
  {
  }

  /** `files.map(f => `- ${f}`)`. */
  function Bullets(files: seq<string>): (r: seq<string>)
    ensures |r| == |files|
    ensures forall i :: 0 <= i < |files| ==> r[i] == "- " + files[i]
    decreases |files|
  {
    if |files| == 0 then [] else ["- " + files[0]] + Bullets(files[1..])
  }

  /** The `{{files}}` text: one bullet per file, joined by line breaks, or `No files changed`. */
  function FilesSection(files: seq<string>): (r: string)
    ensures |files| == 0 <==> r == NoFilesChanged
    ensures |r| > 0
  {
    if |files| > 0 then
      var r := Join(Bullets(files), '\n');
      assert IsPrefix("- ", r) by { JoinStartsWithFirst(Bullets(files), '\n'); }
      assert r[0] == '-' != NoFilesChanged[0];
      r
    else NoFilesChanged
  }

  /** A join starts with its first piece. */
  lemma {:induction false} JoinStartsWithFirst(xs: seq<string>, sep: char)
    requires |xs| > 0
    ensures IsPrefix(xs[0], Join(xs, sep))
  {
    if |xs| > 1 {
      assert Join(xs, sep)[..|xs[0]|] == xs[0];
    }
  }

  /**
    Read back line by line, the files section of path names without line
    breaks is the list of bullets, in order, one per file.
   */
  lemma FilesSectionLines(files: seq<string>)
    requires |files| > 0
    requires forall i :: 0 <= i < |files| ==> '\n' !in files[i]
    ensures Split(FilesSection(files), '\n') == Bullets(files)
  {
    var bs := Bullets(files);
    forall i | 0 <= i < |bs| ensures '\n' !in bs[i] {
      assert forall c :: c in bs[i] ==> c in "- " || c in files[i];
    }
    SplitJoin(bs, '\n');
  }

  /** The entries `extractFilesFromDiff` yields never hold a line break. */
  lemma {:induction false} CollectedPathsAreSingleLines(lines: seq<string>)
    ensures forall i :: 0 <= i < |Collect(lines)| ==> '\n' !in Collect(lines)[i]
    decreases |lines|
  {
    if |lines| > 0 {
      CollectedPathsAreSingleLines(lines[1..]);
      var e := LineEntry(lines[0]);
      if |e| == 1 {
        var p := HeaderPath(lines[0]).value;
        assert forall k :: 0 <= k < |p| ==> p[k] != '\n';
      }
      assert Collect(lines) == e + Collect(lines[1..]);
    }
  }

  /** The `{{files}}` text of a diff. */
  function FilesText(diff: string): (r: string)
    ensures ExtractFiles(diff) == [] <==> r == NoFilesChanged
    ensures ExtractFiles(diff) != [] ==> Split(r, '\n') == Bullets(ExtractFiles(diff))
  {
    ExtractedFilesLines(diff);
    FilesSection(ExtractFiles(diff))
  }

  lemma ExtractedFilesLines(diff: string)
    ensures ExtractFiles(diff) != [] ==> Split(FilesSection(ExtractFiles(diff)), '\n') == Bullets(ExtractFiles(diff))
  {
    if ExtractFiles(diff) != [] {
      CollectedPathsAreSingleLines(Split(diff, '\n'));
      FilesSectionLines(ExtractFiles(diff));
    }
  }

  // ---------------------------------------------------------------------
  // Prompt assembly

  /** A text shaped like the template: prose, a slot, prose, a slot, a line break. */
  function Shape(head: string, x: string, middle: string, y: string): string {
    head + x + middle + y + Tail
  }

  /**
    In such a text, a pattern that opens with two braces and holds no line
    break can only occur wholly inside one of the two slots.
   */
  lemma OccurrenceInSlot(head: string, x: string, middle: string, y: string, pat: string, i: int)
    requires Prose(head) && Prose(middle) && |middle| > 0 && middle[0] == '\n'
    requires |pat| >= 2 && pat[0] == '{' && '\n' !in pat
    requires OccursAt(pat, Shape(head, x, middle, y), i)
    ensures var b := |head| + |x|; var c := b + |middle|;
      || (|head| <= i && i + |pat| <= b && OccursAt(pat, x, i - |head|))
      || (c <= i && i + |pat| <= c + |y| && OccursAt(pat, y, i - c))
  {
    var t := Shape(head, x, middle, y);
    var a := |head|;
    var b := a + |x|;
    var c := b + |middle|;
    assert forall k :: 0 <= k < a ==> t[k] == head[k];
    assert forall k :: a <= k < b ==> t[k] == x[k - a];
    assert forall k :: b <= k < c ==> t[k] == middle[k - b];
    assert forall k :: c <= k < c + |y| ==> t[k] == y[k - c];
    assert t[c + |y|] == '\n';
    assert forall k :: i <= k < i + |pat| ==> t[k] == pat[k - i];
    assert forall k :: 0 <= k < |pat| ==> pat[k] != '\n';
    assert forall k :: 0 <= k < |head| ==> head[k] != '{';
    assert forall k :: 0 <= k < |middle| ==> middle[k] != '{';
    assert t[i] == '{';
    assert a <= i;
    assert !(b <= i < c);
    assert i < c + |y|;
    assert t[b] == '\n';
    assert a <= i < b ==> i + |pat| <= b;
    assert c <= i < c + |y| ==> i + |pat| <= c + |y|;
    if a <= i && i + |pat| <= b {
      assert x[i - a..i - a + |pat|] == t[i..i + |pat|];
    } else if c <= i && i + |pat| <= c + |y| {
      assert y[i - c..i - c + |pat|] == t[i..i + |pat|];
    }
  }

  /** Replacing the first slot when the pattern first occurs there. */
  lemma ReplaceFirstSlot(head: string, x: string, middle: string, y: string, rep: string)
    requires FirstAt(x, Shape(head, x, middle, y), |head|)
    ensures ReplaceFirst(Shape(head, x, middle, y), x, rep) == Shape(head, rep, middle, y)
  {
    var t := Shape(head, x, middle, y);
    assert t[..|head|] == head;
    assert t[|head| + |x|..] == middle + y + Tail;
  }

  /** Replacing the second slot when the pattern first occurs there. */
  lemma ReplaceSecondSlot(head: string, x: string, middle: string, y: string, rep: string)
    requires FirstAt(y, Shape(head, x, middle, y), |head| + |x| + |middle|)
    ensures ReplaceFirst(Shape(head, x, middle, y), y, rep) == Shape(head, x, middle, rep)
  {
    var t := Shape(head, x, middle, y);
    var c := |head| + |x| + |middle|;
    assert t[..c] == head + x + middle;
    assert t[c + |y|..] == Tail;
  }

  /**
    `String.prototype.replace` with a string pattern, replacing the first
    occurrence: with the replacement taken literally, or, as JavaScript
    does, with its `$` patterns expanded.
   */
  function Replace(literal: bool, s: string, pat: string, rep: string): string {
    if literal then ReplaceFirst(s, pat, rep) else ReplaceFirstJs(s, pat, rep)
  }

  /**
    The chain of seven replacements `generateRCA` applies to a template:
    the title, description, author, creation date, file list, truncated
    diff and URL, each in place of the first occurrence of its placeholder.
   */
  function PromptWith(literal: bool, template: string, data: PrData, url: string,
                      localeDate: Option<string> -> string): string {
    var t1 := Replace(literal, template, TitlePlaceholder, Stringify(data.title));
    var t2 := Replace(literal, t1, DescriptionPlaceholder, data.description);
    var t3 := Replace(literal, t2, AuthorPlaceholder, data.author);
    var t4 := Replace(literal, t3, CreatedPlaceholder, localeDate(data.created));
    SlotsWith(literal, t4, data.diff, url)
  }

  /** The last three replacements: the file list, the truncated diff, the URL. */
  function SlotsWith(literal: bool, t: string, diff: string, url: string): string {
    var t5 := Replace(literal, t, FilesPlaceholder, FilesText(diff));
    var t6 := Replace(literal, t5, DiffPlaceholder, TruncateDiff(diff, MaxDiffChars));
    Replace(literal, t6, FixUrlPlaceholder, url)
  }

  /** A pattern absent from a text leaves every replacement of it without effect. */
  lemma ReplaceAbsent(literal: bool, s: string, pat: string, rep: string)
    requires Absent(pat, s)
    ensures Replace(literal, s, pat, rep) == s
  {
  }

  /**
    A template of the prompt's shape holds none of the first four
    placeholders, so the title, description, author and creation date never
    reach the prompt: the chain is the last three replacements applied to
    the template itself.
   */
  lemma MetadataNeverReachesPrompt(literal: bool, head: string, middle: string, data: PrData, url: string,
                                   localeDate: Option<string> -> string)
    requires Prose(head) && Prose(middle)
    ensures PromptWith(literal, Fill(head, middle), data, url, localeDate)
         == SlotsWith(literal, Fill(head, middle), data.diff, url)
  {
    var t := Fill(head, middle);
    OthersAbsent(head, middle);
    ReplaceAbsent(literal, t, TitlePlaceholder, Stringify(data.title));
    ReplaceAbsent(literal, t, DescriptionPlaceholder, data.description);
    ReplaceAbsent(literal, t, AuthorPlaceholder, data.author);
    ReplaceAbsent(literal, t, CreatedPlaceholder, localeDate(data.created));
  }

  /**
    The replacement texts do not themselves hold the placeholders that are
    replaced after them: no `{{diff}}` or `{{fix_url}}` in the file list,
    no `{{fix_url}}` in the truncated diff.
   */
  ghost predicate PlainSlots(files: string, diff: string) {
    Absent(DiffPlaceholder, files) && Absent(FixUrlPlaceholder, files) && Absent(FixUrlPlaceholder, diff)
  }

  /** What the slot proofs need of the prose around the slots. */
  predicate Frame(head: string, middle: string) {
    Prose(head) && Prose(middle) && |middle| > 0 && middle[0] == '\n'
  }

  /** The extension's template has the prompt's shape. */
  lemma TemplateShape()
    ensures RcaPromptTemplate == Fill(Head, Middle) == Shape(Head, FilesPlaceholder, Middle, DiffPlaceholder)
    ensures Frame(Head, Middle)
  {
    HeadIsProse();
    MiddleIsProse();
  }

  /** The file list lands in the first slot of the template. */
  lemma FilesStep(head: string, middle: string, files: string)
    requires Prose(head) && Prose(middle)
    ensures ReplaceFirst(Fill(head, middle), FilesPlaceholder, files) == Shape(head, files, middle, DiffPlaceholder)
  {
    var t := Fill(head, middle);
    FilesOnce(head, middle);
    assert OccursAt(FilesPlaceholder, t, |head|);
    assert t == Shape(head, FilesPlaceholder, middle, DiffPlaceholder);
    ReplaceFirstSlot(head, FilesPlaceholder, middle, DiffPlaceholder, files);
  }

  /** The first `{{diff}}` in a frame whose first slot holds none is the second slot. */
  lemma DiffSlotFirst(head: string, files: string, middle: string)
    requires Frame(head, middle) && Absent(DiffPlaceholder, files)
    ensures FirstAt(DiffPlaceholder, Shape(head, files, middle, DiffPlaceholder), |head| + |files| + |middle|)
  {
    var t := Shape(head, files, middle, DiffPlaceholder);
    var c := |head| + |files| + |middle|;
    assert t[c..c + |DiffPlaceholder|] == DiffPlaceholder;
    forall j | OccursAt(DiffPlaceholder, t, j) ensures c <= j {
      OccurrenceInSlot(head, files, middle, DiffPlaceholder, DiffPlaceholder, j);
    }
  }

  /** With no `{{diff}}` in the file list, the diff lands in the second slot. */
  lemma DiffStep(head: string, files: string, middle: string, diff: string)
    requires Frame(head, middle) && Absent(DiffPlaceholder, files)
    ensures ReplaceFirst(Shape(head, files, middle, DiffPlaceholder), DiffPlaceholder, diff)
         == Shape(head, files, middle, diff)
  {
    DiffSlotFirst(head, files, middle);
    ReplaceSecondSlot(head, files, middle, DiffPlaceholder, diff);
  }

  /** With no `{{fix_url}}` in either slot, the URL replacement has nothing to replace. */
  lemma UrlStep(head: string, files: string, middle: string, diff: string)
    requires Frame(head, middle) && Absent(FixUrlPlaceholder, files) && Absent(FixUrlPlaceholder, diff)
    ensures Absent(FixUrlPlaceholder, Shape(head, files, middle, diff))
  {
    forall j | OccursAt(FixUrlPlaceholder, Shape(head, files, middle, diff), j) ensures false {
      OccurrenceInSlot(head, files, middle, diff, FixUrlPlaceholder, j);
    }
  }

  /**
    With literal replacements and replacement texts that hold no
    placeholders of their own, the chain fills the two slots of the
    template with the file list and the truncated diff, whatever the title,
    description, author, creation date and URL.
   */
  lemma PromptShape(head: string, middle: string, data: PrData, url: string, localeDate: Option<string> -> string)
    requires Frame(head, middle)
    ensures PlainSlots(FilesText(data.diff), TruncateDiff(data.diff, MaxDiffChars)) ==>
      PromptWith(true, Fill(head, middle), data, url, localeDate)
        == Shape(head, FilesText(data.diff), middle, TruncateDiff(data.diff, MaxDiffChars))
  {
    var files := FilesText(data.diff);
    var diff := TruncateDiff(data.diff, MaxDiffChars);
    if PlainSlots(files, diff) {
      MetadataNeverReachesPrompt(true, head, middle, data, url, localeDate);
      FilesStep(head, middle, files);
      DiffStep(head, files, middle, diff);
      UrlStep(head, files, middle, diff);
    }
  }

  /**
    The prompt `generateRCA` sends, with every replacement taken
    literally. When the replacement texts hold no placeholders of their
    own, it is the template with the file list in place of `{{files}}`
    and the truncated diff in place of `{{diff}}`, whatever the title,
    description, author, creation date and URL.
   */
  function BuildPrompt(data: PrData, url: string, localeDate: Option<string> -> string): (prompt: string)
    ensures PlainSlots(FilesText(data.diff), TruncateDiff(data.diff, MaxDiffChars)) ==>
      prompt == Shape(Head, FilesText(data.diff), Middle, TruncateDiff(data.diff, MaxDiffChars))
  {
    TemplateShape();
    PromptShape(Head, Middle, data, url, localeDate);
    PromptWith(true, RcaPromptTemplate, data, url, localeDate)
  }

  /** Two pull requests with the same diff get the same prompt, whatever their other fields. */
  lemma PromptDependsOnlyOnDiffAndUrl(literal: bool, d1: PrData, d2: PrData, url: string,
                                      date1: Option<string> -> string, date2: Option<string> -> string)
    requires d1.diff == d2.diff
    ensures PromptWith(literal, RcaPromptTemplate, d1, url, date1) == PromptWith(literal, RcaPromptTemplate, d2, url, date2)
  {
    TemplateShape();
    MetadataNeverReachesPrompt(literal, Head, Middle, d1, url, date1);
    MetadataNeverReachesPrompt(literal, Head, Middle, d2, url, date2);
  }

  /** Under plain slots the URL does not reach the prompt either. */
  lemma PromptIgnoresUrl(data: PrData, url1: string, url2: string, date: Option<string> -> string)
    requires PlainSlots(FilesText(data.diff), TruncateDiff(data.diff, MaxDiffChars))
    ensures BuildPrompt(data, url1, date) == BuildPrompt(data, url2, date)
  {
  }

  /**
    The JavaScript chain and the literal one agree on a template of the
    prompt's shape when none of the file list, the truncated diff and the
    URL holds a `$`.
   */
  lemma AsWrittenAgrees(head: string, middle: string, data: PrData, url: string, localeDate: Option<string> -> string)
    requires Prose(head) && Prose(middle)
    ensures '$' !in FilesText(data.diff) && '$' !in TruncateDiff(data.diff, MaxDiffChars) && '$' !in url ==>
      PromptWith(false, Fill(head, middle), data, url, localeDate)
        == PromptWith(true, Fill(head, middle), data, url, localeDate)
  {
    var files := FilesText(data.diff);
    var diff := TruncateDiff(data.diff, MaxDiffChars);
    if '$' !in files && '$' !in diff && '$' !in url {
      MetadataNeverReachesPrompt(false, head, middle, data, url, localeDate);
      MetadataNeverReachesPrompt(true, head, middle, data, url, localeDate);
      var t := Fill(head, middle);
      ReplaceFirstJsLiteral(t, FilesPlaceholder, files);
      var t5 := ReplaceFirst(t, FilesPlaceholder, files);
      ReplaceFirstJsLiteral(t5, DiffPlaceholder, diff);
      var t6 := ReplaceFirst(t5, DiffPlaceholder, diff);
      ReplaceFirstJsLiteral(t6, FixUrlPlaceholder, url);
    }
  }

  /**
    The prompt exactly as `generateRCA` builds it: JavaScript's `replace`
    expands `$` patterns in the file list, the diff and the URL. It agrees
    with `BuildPrompt` whenever none of the three holds a `$`.
   */
  function BuildPromptAsWritten(data: PrData, url: string, localeDate: Option<string> -> string): (prompt: string)
    ensures '$' !in FilesText(data.diff) && '$' !in TruncateDiff(data.diff, MaxDiffChars) && '$' !in url ==>
      prompt == BuildPrompt(data, url, localeDate)
  {
    TemplateShape();
    AsWrittenAgrees(Head, Middle, data, url, localeDate);
    PromptWith(false, RcaPromptTemplate, data, url, localeDate)
  }

  /** The text of a diff `$&`: no header line, so no files, and short enough to be kept whole. */
  lemma DollarDiffTexts()
    ensures FilesText("$&") == NoFilesChanged
    ensures TruncateDiff("$&", MaxDiffChars) == "$&"
  {
    ExtractFilesLine("$&");
    assert !IsPrefix(HeaderPrefix, "$&");
  }

  /** Replacing `{{diff}}` by `$&` the JavaScript way writes the placeholder back. */
  lemma DollarStep(head: string, files: string, middle: string)
    requires Frame(head, middle) && Absent(DiffPlaceholder, files)
    ensures ReplaceFirstJs(Shape(head, files, middle, DiffPlaceholder), DiffPlaceholder, "$&")
         == Shape(head, files, middle, DiffPlaceholder)
  {
    DiffSlotFirst(head, files, middle);
    ReplaceByMatchIsIdentity(Shape(head, files, middle, DiffPlaceholder), DiffPlaceholder, |head| + |files| + |middle|);
  }

  /** The JavaScript chain on the diff `$&`: the diff slot keeps its placeholder. */
  lemma DollarAsWritten(head: string, middle: string, data: PrData, url: string, localeDate: Option<string> -> string)
    requires Frame(head, middle) && data.diff == "$&"
    ensures PromptWith(false, Fill(head, middle), data, url, localeDate)
         == Shape(head, NoFilesChanged, middle, DiffPlaceholder)
  {
    DollarDiffTexts();
    NoFilesChangedIsPlain();
    AbsentByFirstChar(DiffPlaceholder, NoFilesChanged);
    AbsentByFirstChar(FixUrlPlaceholder, NoFilesChanged);
    MetadataNeverReachesPrompt(false, head, middle, data, url, localeDate);
    ReplaceFirstJsLiteral(Fill(head, middle), FilesPlaceholder, NoFilesChanged);
    FilesStep(head, middle, NoFilesChanged);
    DollarStep(head, NoFilesChanged, middle);
    UrlStep(head, NoFilesChanged, middle, DiffPlaceholder);
    ReplaceAbsent(false, Shape(head, NoFilesChanged, middle, DiffPlaceholder), FixUrlPlaceholder, url);
  }

  /** The literal chain on the diff `$&`: the two characters land in the diff slot. */
  lemma DollarCorrected(head: string, middle: string, data: PrData, url: string, localeDate: Option<string> -> string)
    requires Frame(head, middle) && data.diff == "$&"
    ensures PromptWith(true, Fill(head, middle), data, url, localeDate) == Shape(head, NoFilesChanged, middle, "$&")
  {
    DollarDiffTexts();
    NoFilesChangedIsPlain();
    AbsentByFirstChar(DiffPlaceholder, NoFilesChanged);
    AbsentByFirstChar(FixUrlPlaceholder, NoFilesChanged);
    AbsentByFirstChar(FixUrlPlaceholder, "$&");
    PromptShape(head, middle, data, url, localeDate);
  }

  /** Texts of the template's shape with slot contents of different lengths differ. */
  lemma ShapesDiffer(head: string, x: string, middle: string, y1: string, y2: string)
    requires |y1| != |y2|
    ensures Shape(head, x, middle, y1) != Shape(head, x, middle, y2)
  {
  }

  /** Both chains on the diff `$&`, side by side. */
  lemma DollarChains(head: string, middle: string, data: PrData, url: string, localeDate: Option<string> -> string)
    requires Frame(head, middle) && data.diff == "$&"
    ensures PromptWith(false, Fill(head, middle), data, url, localeDate)
         == Shape(head, NoFilesChanged, middle, DiffPlaceholder)
         != PromptWith(true, Fill(head, middle), data, url, localeDate)
         == Shape(head, NoFilesChanged, middle, "$&")
  {
    DollarAsWritten(head, middle, data, url, localeDate);
    DollarCorrected(head, middle, data, url, localeDate);
    ShapesDiffer(head, NoFilesChanged, middle, DiffPlaceholder, "$&");
  }

  /**
    A pull request whose whole diff is `$&`. JavaScript reads `$&` in the
    replacement as "the matched text", so the diff step writes `{{diff}}`
    back in place of the diff and the model receives no diff at all, while
    the literal replacement puts the two characters in the diff slot.
   */
  lemma DollarDiffKeepsPlaceholder(data: PrData, url: string, localeDate: Option<string> -> string)
    requires data.diff == "$&"
    ensures (BuildPromptAsWritten(data, url, localeDate), BuildPrompt(data, url, localeDate))
         == (Shape(Head, NoFilesChanged, Middle, DiffPlaceholder), Shape(Head, NoFilesChanged, Middle, "$&"))
  {
    TemplateShape();
    DollarChains(Head, Middle, data, url, localeDate);
  }

  /** So the prompt as written and the corrected one differ on that pull request. */
  lemma DollarDiffChangesPrompt(data: PrData, url: string, localeDate: Option<string> -> string)
    requires data.diff == "$&"
    ensures BuildPromptAsWritten(data, url, localeDate) != BuildPrompt(data, url, localeDate)
  {
    TemplateShape();
    DollarChains(Head, Middle, data, url, localeDate);
  }

  // ---------------------------------------------------------------------
  // The Gemini call

  datatype Part = Part(text: Option<string>)
  datatype Content = Content(parts: Option<seq<Part>>)
  datatype Candidate = Candidate(content: Option<Content>)

  /** The fields of a `generateContent` response body the extension reads: `error.message` and `candidates`. */
  datatype GeminiJson = GeminiJson(errorMessage: Option<string>, candidates: Option<seq<Candidate>>)

  /** The Gemini service, as the reply it gives to each request. */
  type Gemini = Request -> Reply<GeminiJson>

  const TopK: nat := 40
  const MaxOutputTokens: nat := 2048
  const ApiErrorPrefix: string := "Gemini API error: "
  const NoResponse: string := "No response generated from Gemini API"
  const ApiKeyRequired: string := "Gemini API key is required"

  /**
    The `generateContent` request: a POST to the Gemini endpoint with the
    key as the `key` query parameter, a JSON content type, and the prompt
    with the integer generation settings as body.
   */
  function GeminiRequest(prompt: string, apiKey: string): Request {
    Request(Post, GeminiApiEndpoint + "?key=" + apiKey, [Header("Content-Type", Plain("application/json"))],
            Generate(prompt, TopK, MaxOutputTokens))
  }

  /**
    `text` is what the service answered: the first part of the first
    candidate, whatever other parts and candidates follow.
   */
  ghost predicate Answers(body: GeminiJson, text: Option<string>) {
    exists parts: seq<Part>, others: seq<Candidate> ::
      body.candidates == Some([Candidate(Some(Content(Some([Part(text)] + parts))))] + others)
  }

  /**
    The extraction `callGeminiAPI` applies to an OK body: the first
    candidate's first part's text when both lists are non-empty, and the
    `No response` error otherwise; an answer is never made up.
   */
  function FirstText(body: GeminiJson): (r: Result<Option<string>>)
    ensures r.Ok? ==> Answers(body, r.value)
    ensures r.Err? ==> r.message == NoResponse && forall t :: !Answers(body, t)
  {
    if body.candidates.Some? && |body.candidates.value| > 0 then
      var candidate := body.candidates.value[0];
      if candidate.content.Some? && candidate.content.value.parts.Some? && |candidate.content.value.parts.value| > 0 then
        var parts := candidate.content.value.parts.value;
        assert parts == [Part(parts[0].text)] + parts[1..];
        assert body.candidates.value == [candidate] + body.candidates.value[1..];
        Ok(parts[0].text)
      else
        Err(NoResponse)
    else
      Err(NoResponse)
  }

  /** Whatever the service answered first is what the extraction returns. */
  lemma FirstTextOfAnswer(body: GeminiJson, text: Option<string>)
    requires Answers(body, text)
    ensures FirstText(body) == Ok(text)
  {
    var parts: seq<Part>, others: seq<Candidate> :|
      body.candidates == Some([Candidate(Some(Content(Some([Part(text)] + parts))))] + others);
    assert body.candidates.value[0] == Candidate(Some(Content(Some([Part(text)] + parts))));
  }

  /** The detail after the status in the error for a non-OK answer: `error.message`, else the status text. */
  function ApiErrorDetail(response: Response<GeminiJson>): (d: string)
    ensures response.json.Ok? && Truthy(response.json.value.errorMessage) ==> d == response.json.value.errorMessage.value
    ensures !(response.json.Ok? && Truthy(response.json.value.errorMessage)) ==> d == response.statusText
  {
    match response.json
    case Ok(body) => OrElse(body.errorMessage, response.statusText)
    case Err(_) => response.statusText
  }

  /**
    `callGeminiAPI(prompt, apiKey)`: one request; a rejected `fetch` or an
    unparseable OK body propagates its error; a non-OK status fails with
    the status and the error detail; an OK body yields its first answer or
    the `No response` error.
   */
  function CallGemini(prompt: string, apiKey: string, gemini: Gemini): (r: Result<Option<string>>)
    ensures var reply := gemini(GeminiRequest(prompt, apiKey));
      r.Ok? ==> reply.Answered? && IsOk(reply.response.status) && reply.response.json.Ok?
                && Answers(reply.response.json.value, r.value)
    ensures var reply := gemini(GeminiRequest(prompt, apiKey));
      reply.Answered? && IsOk(reply.response.status) && reply.response.json.Ok? ==>
        (r.Ok? <==> exists t :: Answers(reply.response.json.value, t))
    ensures var reply := gemini(GeminiRequest(prompt, apiKey));
      reply.Answered? && IsOk(reply.response.status) && reply.response.json.Ok? && r.Err? ==>
        r == Err(NoResponse)
    ensures var reply := gemini(GeminiRequest(prompt, apiKey));
      reply.Answered? && IsOk(reply.response.status) && reply.response.json.Err? ==>
        r == Err(reply.response.json.message)
    ensures var reply := gemini(GeminiRequest(prompt, apiKey));
      reply.Answered? && !IsOk(reply.response.status) ==>
        r == Err(ApiErrorPrefix + Decimal(reply.response.status) + " - " + ApiErrorDetail(reply.response))
    ensures var reply := gemini(GeminiRequest(prompt, apiKey));
      reply.NetworkError? ==> r == Err(reply.message)
  {
    match gemini(GeminiRequest(prompt, apiKey))
    case NetworkError(m) => Err(m)
    case Answered(response) =>
      if !IsOk(response.status) then
        Err(ApiErrorPrefix + Decimal(response.status) + " - " + ApiErrorDetail(response))
      else
        match response.json
        case Err(m) => Err(m)
        case Ok(body) => FirstText(body)
  }

  /** A non-OK answer's error names its status, which reads back as that number. */
  lemma ApiErrorNamesStatus(prompt: string, apiKey: string, gemini: Gemini)
    requires gemini(GeminiRequest(prompt, apiKey)).Answered?
    requires !IsOk(gemini(GeminiRequest(prompt, apiKey)).response.status)
    ensures var status := gemini(GeminiRequest(prompt, apiKey)).response.status;
      var m := CallGemini(prompt, apiKey, gemini).message;
      IsPrefix(ApiErrorPrefix, m) && DecimalValue(m[|ApiErrorPrefix|..|ApiErrorPrefix| + |Decimal(status)|]) == status
  {
    var response := gemini(GeminiRequest(prompt, apiKey)).response;
    var d := Decimal(response.status);
    var m := ApiErrorPrefix + d + " - " + ApiErrorDetail(response);
    assert m[..|ApiErrorPrefix|] == ApiErrorPrefix;
    assert m[|ApiErrorPrefix|..|ApiErrorPrefix| + |d|] == d;
    DecimalRoundTrip(response.status);
  }

  /**
    `generateRCA(prData, apiKey, url)`: a falsy key fails before any
    request; otherwise the prompt goes to Gemini in a single request and
    the call's outcome is the result. The prompt is the one built with
    literal replacements (see `BuildPromptAsWritten` for the difference).
   */
  function GenerateRca(data: PrData, apiKey: Option<string>, url: string, gemini: Gemini,
                       localeDate: Option<string> -> string): (out: (seq<Request>, Result<Option<string>>))
    ensures !Truthy(apiKey) ==> out == ([], Err(ApiKeyRequired))
    ensures Truthy(apiKey) ==>
      exists prompt :: out == ([GeminiRequest(prompt, apiKey.value)], CallGemini(prompt, apiKey.value, gemini))
  {
    if !Truthy(apiKey) then ([], Err(ApiKeyRequired))
    else
      var prompt := BuildPrompt(data, url, localeDate);
      ([GeminiRequest(prompt, apiKey.value)], CallGemini(prompt, apiKey.value, gemini))
  }

  /**
    The prompt `generateRCA` sends: the template with the list of changed
    files and the truncated diff in their slots, when neither holds `{{`.
   */
  lemma GeneratedPrompt(data: PrData, apiKey: Option<string>, url: string, gemini: Gemini,
                        localeDate: Option<string> -> string)
    requires Truthy(apiKey) && PlainSlots(FilesText(data.diff), TruncateDiff(data.diff, MaxDiffChars))
    ensures GenerateRca(data, apiKey, url, gemini, localeDate).0
         == [GeminiRequest(Shape(Head, FilesText(data.diff), Middle, TruncateDiff(data.diff, MaxDiffChars)), apiKey.value)]
  {
  }

  /**
    The request `generateRCA` sends carries the prompt its own chain of
    `replace` calls builds whenever none of the inserted texts holds `$`.
   */
  lemma GenerateRcaAgreesWithCode(data: PrData, apiKey: Option<string>, url: string, gemini: Gemini,
                                  localeDate: Option<string> -> string)
    requires Truthy(apiKey)
    requires '$' !in FilesText(data.diff) && '$' !in TruncateDiff(data.diff, MaxDiffChars) && '$' !in url
    ensures GenerateRca(data, apiKey, url, gemini, localeDate).0
         == [GeminiRequest(BuildPromptAsWritten(data, url, localeDate), apiKey.value)]
  {
  }
}

=== FILE: settings.dfy ===
/**
  `settings.js`: the settings page. Its state is the three input fields,
  the two status indicators, the last alert shown, and the store; each
  handler is a transition of that state. A test of the Gemini key also
  yields the request it sends.
 */
module Settings {
  import opened Js
  import opened Text
  import opened Config
  import opened Http
  import opened RcaGenerator
  import opened Storage
  import opened Background

  datatype Alert = NoAlert | Success(text: string) | Failure(text: string)

  datatype SettingsState = SettingsState(
    geminiInput: string,
    emailInput: string,
    tokenInput: string,
    geminiConfigured: bool,
    bitbucketConfigured: bool,
    alert: Alert,
    store: Store)

  const EnterGeminiKey: string := "Please enter a Gemini API key"
  const GeminiSaved: string := "Gemini API key saved successfully!"
  const KeyValid: string := "\U{2705} API key is valid! You can now use the extension."
  const KeyTestFailed: string := "\U{274C} API key test failed: "
  const EnterBoth: string := "Please enter both Atlassian email and API token"
  const BitbucketSaved: string := "Bitbucket credentials saved successfully!"
  const BitbucketCleared: string := "Bitbucket credentials cleared"

  /**
    `loadSettings()`: each stored credential that is set fills its field;
    Gemini shows as configured when the key is set, Bitbucket when both the
    email and the token are.
   */
  function LoadSettings(st: SettingsState): (r: SettingsState)
    ensures r.geminiConfigured <==> Truthy(GetGeminiApiKey(st.store))
    ensures r.bitbucketConfigured <==> Truthy(GetBitbucketEmail(st.store)) && Truthy(GetBitbucketToken(st.store))
    ensures r.geminiInput == if Truthy(GetGeminiApiKey(st.store)) then GetGeminiApiKey(st.store).value else st.geminiInput
    ensures r.emailInput == if Truthy(GetBitbucketEmail(st.store)) then GetBitbucketEmail(st.store).value else st.emailInput
    ensures r.tokenInput == if Truthy(GetBitbucketToken(st.store)) then GetBitbucketToken(st.store).value else st.tokenInput
    ensures r.store == st.store && r.alert == st.alert
  {
    var key := GetGeminiApiKey(st.store);
    var email := GetBitbucketEmail(st.store);
    var token := GetBitbucketToken(st.store);
    st.(geminiInput := OrElse(key, st.geminiInput),
        emailInput := OrElse(email, st.emailInput),
        tokenInput := OrElse(token, st.tokenInput),
        geminiConfigured := Truthy(key),
        bitbucketConfigured := Truthy(email) && Truthy(token))
  }

  /**
    `handleSaveGemini()`: a blank key writes nothing and alerts; otherwise
    the trimmed key is saved under the API-key key only.
   */
  function HandleSaveGemini(st: SettingsState): (r: SettingsState)
    ensures Trim(st.geminiInput) == "" ==> r == st.(alert := Failure(EnterGeminiKey))
    ensures Trim(st.geminiInput) != "" ==>
      && Reads(r.store) == (Some(Trim(st.geminiInput)), GetBitbucketEmail(st.store), GetBitbucketToken(st.store),
                            GetChatHistory(st.store))
      && r.geminiConfigured && r.alert == Success(GeminiSaved)
  {
    var apiKey := Trim(st.geminiInput);
    if apiKey == "" then st.(alert := Failure(EnterGeminiKey))
    else st.(store := SaveGeminiApiKey(st.store, apiKey), geminiConfigured := true, alert := Success(GeminiSaved))
  }

  /** A saved key is what the next load shows, and it shows as configured. */
  lemma SavedKeyLoads(st: SettingsState)
    requires Trim(st.geminiInput) != ""
    ensures var loaded := LoadSettings(HandleSaveGemini(st));
      loaded.geminiConfigured && loaded.geminiInput == Trim(st.geminiInput)
  {
  }

  /**
    `handleTestGemini()`: a blank key sends nothing; otherwise one test
    request with the trimmed key, and the Gemini status follows its
    outcome. The store is never written.
   */
  function HandleTestGemini(st: SettingsState, gemini: Gemini): (out: (seq<Request>, SettingsState))
    ensures out.1.store == st.store
    ensures Trim(st.geminiInput) == "" ==> out == ([], st.(alert := Failure(EnterGeminiKey)))
    ensures Trim(st.geminiInput) != "" ==>
      var call := CallGemini(TestPrompt, Trim(st.geminiInput), gemini);
      && out.0 == [GeminiRequest(TestPrompt, Trim(st.geminiInput))]
      && (out.1.geminiConfigured <==> call.Ok?)
      && (call.Ok? ==> out.1.alert == Success(KeyValid))
      && (call.Err? ==> out.1.alert == Failure(KeyTestFailed + call.message))
  {
    var apiKey := Trim(st.geminiInput);
    if apiKey == "" then ([], st.(alert := Failure(EnterGeminiKey)))
    else
      var requests := [GeminiRequest(TestPrompt, apiKey)];
      match CallGemini(TestPrompt, apiKey, gemini)
      case Ok(_) => (requests, st.(alert := Success(KeyValid), geminiConfigured := true))
      case Err(m) => (requests, st.(alert := Failure(KeyTestFailed + m), geminiConfigured := false))
  }

  /**
    The settings page's test and the background's `validateApiKey` send
    the same request and agree on whether the key works.
   */
  lemma TestAgreesWithValidate(st: SettingsState, gemini: Gemini)
    requires Trim(st.geminiInput) != ""
    ensures var tested := HandleTestGemini(st, gemini);
      var validated := HandleValidateApiKey(Trim(st.geminiInput), gemini);
      && validated.0 == Sends(tested.0)
      && (tested.1.geminiConfigured <==> validated.1.Ok?)
  {
  }

  /**
    `handleSaveBitbucket()`: both trimmed credentials are saved when both
    are non-blank, and neither otherwise.
   */
  function HandleSaveBitbucket(st: SettingsState): (r: SettingsState)
    ensures Trim(st.emailInput) == "" || Trim(st.tokenInput) == "" ==> r == st.(alert := Failure(EnterBoth))
    ensures Trim(st.emailInput) != "" && Trim(st.tokenInput) != "" ==>
      && Reads(r.store) == (GetGeminiApiKey(st.store), Some(Trim(st.emailInput)), Some(Trim(st.tokenInput)),
                            GetChatHistory(st.store))
      && r.bitbucketConfigured && r.alert == Success(BitbucketSaved)
  {
    var email := Trim(st.emailInput);
    var token := Trim(st.tokenInput);
    if email == "" || token == "" then st.(alert := Failure(EnterBoth))
    else
      var saved := SaveBitbucketToken(SaveBitbucketEmail(st.store, email), token);
      st.(store := saved, bitbucketConfigured := true, alert := Success(BitbucketSaved))
  }

  /**
    `handleClearBitbucket()`: the email and token keys are removed and
    their fields emptied; the API key and the history are untouched.
   */
  function HandleClearBitbucket(st: SettingsState): (r: SettingsState)
    ensures Reads(r.store) == (GetGeminiApiKey(st.store), None, None, GetChatHistory(st.store))
    ensures r.emailInput == "" && r.tokenInput == "" && !r.bitbucketConfigured
    ensures r.alert == Success(BitbucketCleared)
    ensures r.geminiInput == st.geminiInput && r.geminiConfigured == st.geminiConfigured
  {
    var cleared := RemoveBitbucketToken(RemoveBitbucketEmail(st.store));
    st.(store := cleared, emailInput := "", tokenInput := "", bitbucketConfigured := false,
        alert := Success(BitbucketCleared))
  }

  /**
    The Bitbucket status the handlers set is the one the next load
    computes: saving marks it configured and clearing not.
   */
  lemma BitbucketStatusSurvivesReload(st: SettingsState)
    ensures Trim(st.emailInput) != "" && Trim(st.tokenInput) != "" ==>
      LoadSettings(HandleSaveBitbucket(st)).bitbucketConfigured
    ensures !LoadSettings(HandleClearBitbucket(st)).bitbucketConfigured
  {
  }
}

=== FILE: storage.dfy ===
/**
  `utils/storage.js`: the extension's persistent state as a map from keys
  to values, the generic save/get/remove operations on it, the accessors
  for the three credentials, and the chat history, which is capped to its
  most recent entries whenever it is saved.
 */
module Storage {
  import opened Js
  import opened Config

  datatype Role = User | Assistant

  /** One message of the chat, as the popup records and persists it. */
  datatype ChatEntry = ChatEntry(role: Role, content: string, isError: bool, timestamp: int)

  /** What the extension stores: a string (a credential) or the chat history. */
  datatype Value = Text(text: string) | History(entries: seq<ChatEntry>)

  type Store = map<string, Value>

  /** `get(key)`: the stored value, `undefined` when the key is absent. */
  function Get(store: Store, key: string): (v: Option<Value>)
    ensures v.Some? <==> key in store
    ensures v.Some? ==> v.value == store[key]
  {
    if key in store then Some(store[key]) else None
  }

  /** `save(key, value)`: reading `key` back yields `value`; every other key reads as before. */
  function Save(store: Store, key: string, value: Value): (r: Store)
    ensures Get(r, key) == Some(value)
    ensures forall k :: k != key ==> Get(r, k) == Get(store, k)
    ensures r.Keys == store.Keys + {key}
  {
    store[key := value]
  }

  /** `remove(key)`: reading `key` back yields `undefined`; every other key reads as before. */
  function Remove(store: Store, key: string): (r: Store)
    ensures Get(r, key) == None
    ensures forall k :: k != key ==> Get(r, k) == Get(store, k)
    ensures r.Keys == store.Keys - {key}
  {
    store - {key}
  }

  /** Saving the same key twice keeps only the second value. */
  lemma SaveOverwrites(store: Store, key: string, v1: Value, v2: Value)
    ensures Save(Save(store, key, v1), key, v2) == Save(store, key, v2)
  {
  }

  /** Removing a key after saving it leaves the store as if it had only been removed. */
  lemma RemoveUndoesSave(store: Store, key: string, v: Value)
    ensures Remove(Save(store, key, v), key) == Remove(store, key)
  {
  }

  // ---------------------------------------------------------------------
  // The credentials

  /** A credential as read back: the stored string, `undefined` when absent. */
  function GetText(store: Store, key: string): (s: Option<string>)
    ensures s.Some? <==> Get(store, key).Some? && Get(store, key).value.Text?
    ensures s.Some? ==> Get(store, key) == Some(Text(s.value))
  {
    match Get(store, key)
    case Some(Text(t)) => Some(t)
    case _ => None
  }

  function GetGeminiApiKey(store: Store): Option<string> {
    GetText(store, GeminiApiKeyKey)
  }

  function GetBitbucketEmail(store: Store): Option<string> {
    GetText(store, BitbucketEmailKey)
  }

  function GetBitbucketToken(store: Store): Option<string> {
    GetText(store, BitbucketTokenKey)
  }

  // ---------------------------------------------------------------------
  // The chat history

  /**
    `xs.slice(-n)`: the last `n` elements, or all of them when there are
    fewer. `-0` is `0`, so `slice(-0)` keeps the whole sequence.
   */
  function LastN<T>(xs: seq<T>, n: nat): (r: seq<T>)
    ensures |r| == if n == 0 || |xs| <= n then |xs| else n
    ensures r == xs[|xs| - |r|..]
  {
    if n == 0 || |xs| <= n then xs else xs[|xs| - n..]
  }

  /** `getChatHistory()`: the stored history, or `[]` when there is none. */
  function GetChatHistory(store: Store): (h: seq<ChatEntry>)
    ensures Get(store, ChatHistoryKey) == None ==> h == []
    ensures h != [] ==> Get(store, ChatHistoryKey) == Some(History(h))
  {
    match Get(store, ChatHistoryKey)
    case Some(History(entries)) => entries
    case _ => []
  }

  /** What every read of the store returns; two stores that agree on it are indistinguishable to the extension. */
  function Reads(store: Store): (Option<string>, Option<string>, Option<string>, seq<ChatEntry>) {
    (GetGeminiApiKey(store), GetBitbucketEmail(store), GetBitbucketToken(store), GetChatHistory(store))
  }

  /** `saveGeminiApiKey(apiKey)`: only the API key changes. */
  function SaveGeminiApiKey(store: Store, apiKey: string): (r: Store)
    ensures Reads(r) == (Some(apiKey), GetBitbucketEmail(store), GetBitbucketToken(store), GetChatHistory(store))
  {
    StorageKeysDistinct();
    Save(store, GeminiApiKeyKey, Text(apiKey))
  }

  /** `saveBitbucketEmail(email)`: only the email changes. */
  function SaveBitbucketEmail(store: Store, email: string): (r: Store)
    ensures Reads(r) == (GetGeminiApiKey(store), Some(email), GetBitbucketToken(store), GetChatHistory(store))
  {
    StorageKeysDistinct();
    Save(store, BitbucketEmailKey, Text(email))
  }

  /** `saveBitbucketToken(token)`: only the token changes. */
  function SaveBitbucketToken(store: Store, token: string): (r: Store)
    ensures Reads(r) == (GetGeminiApiKey(store), GetBitbucketEmail(store), Some(token), GetChatHistory(store))
  {
    StorageKeysDistinct();
    Save(store, BitbucketTokenKey, Text(token))
  }

  /** `remove(key)` of one credential: it reads back as absent, the rest as before. */
  function RemoveBitbucketEmail(store: Store): (r: Store)
    ensures Reads(r) == (GetGeminiApiKey(store), None, GetBitbucketToken(store), GetChatHistory(store))
  {
    StorageKeysDistinct();
    Remove(store, BitbucketEmailKey)
  }

  function RemoveBitbucketToken(store: Store): (r: Store)
    ensures Reads(r) == (GetGeminiApiKey(store), GetBitbucketEmail(store), None, GetChatHistory(store))
  {
    StorageKeysDistinct();
    Remove(store, BitbucketTokenKey)
  }

  /**
    `saveChatHistory(history)`: the stored history is the last
    `MaxChatHistory` entries of `history`; the credentials are untouched.
   */
  function SaveChatHistory(store: Store, history: seq<ChatEntry>): (r: Store)
    ensures Reads(r) == (GetGeminiApiKey(store), GetBitbucketEmail(store), GetBitbucketToken(store),
                         LastN(history, MaxChatHistory))
    ensures |GetChatHistory(r)| <= MaxChatHistory
  {
    StorageKeysDistinct();
    Save(store, ChatHistoryKey, History(LastN(history, MaxChatHistory)))
  }

  /** `clearChatHistory()`: the history reads back as `[]`; the credentials are untouched. */
  function ClearChatHistory(store: Store): (r: Store)
    ensures Reads(r) == (GetGeminiApiKey(store), GetBitbucketEmail(store), GetBitbucketToken(store), [])
  {
    StorageKeysDistinct();
    Remove(store, ChatHistoryKey)
  }

  /** A history that fits is saved whole. */
  lemma ShortHistoryKept(store: Store, history: seq<ChatEntry>)
    requires |history| <= MaxChatHistory
    ensures GetChatHistory(SaveChatHistory(store, history)) == history
  {
  }

  /**
    Capping before or after appending makes no difference to what is kept:
    the last `n` of (the last `n` of `xs`) followed by `ys` are the last
    `n` of `xs` followed by `ys`.
   */
  lemma {:induction false} LastNAppend<T>(xs: seq<T>, ys: seq<T>, n: nat)
    ensures LastN(LastN(xs, n) + ys, n) == LastN(xs + ys, n)
  {
    if n == 0 {
      return;
    }
    var a := LastN(xs, n);
    var l := LastN(a + ys, n);
    var r := LastN(xs + ys, n);
    assert |l| == |r|;
    forall i | 0 <= i < |l| ensures l[i] == r[i] {
      var k := |l| - i;
      assert l[i] == (a + ys)[|a + ys| - k];
      assert r[i] == (xs + ys)[|xs + ys| - k];
      if k <= |ys| {
        assert (a + ys)[|a + ys| - k] == ys[|ys| - k];
        assert (xs + ys)[|xs + ys| - k] == ys[|ys| - k];
      } else {
        assert (a + ys)[|a + ys| - k] == a[|a| - (k - |ys|)];
        assert a[|a| - (k - |ys|)] == xs[|xs| - (k - |ys|)];
        assert (xs + ys)[|xs + ys| - k] == xs[|xs| - (k - |ys|)];
      }
    }
  }

  /** Capping twice is capping once. */
  lemma LastNIdempotent<T>(xs: seq<T>, n: nat)
    ensures LastN(LastN(xs, n), n) == LastN(xs, n)
  {
  }
}

=== FILE: text.dfy ===
/**
  The JavaScript string operations the extension relies on, written over
  `seq<char>`: `startsWith`, `indexOf`, `replace` with a string pattern
  (first occurrence only, with and without the `$` expansion of the
  replacement text), `split`/`join` on one separator character, `trim`,
  and the decimal rendering of a non-negative number.
 */
module Text {
  import opened Js

  predicate IsPrefix(p: string, s: string) {
    |p| <= |s| && s[..|p|] == p
  }

  /** `pat` occurs in `s` starting at index `i`. */
  predicate OccursAt(pat: string, s: string, i: int) {
    0 <= i && i + |pat| <= |s| && s[i..i + |pat|] == pat
  }

  /** `pat` occurs nowhere in `s`. */
  ghost predicate Absent(pat: string, s: string) {
    forall i :: !OccursAt(pat, s, i)
  }

  /** `i` is the first index at which `pat` occurs in `s`. */
  predicate FirstAt(pat: string, s: string, i: int) {
    OccursAt(pat, s, i) && forall j :: 0 <= j < i ==> !OccursAt(pat, s, j)
  }

  /** A pattern does not occur where one of its characters disagrees with the text. */
  lemma DiffersAt(pat: string, s: string, i: int, k: nat)
    requires k < |pat| && 0 <= i && i + k < |s| && s[i + k] != pat[k]
    ensures !OccursAt(pat, s, i)
  {
    if i + |pat| <= |s| {
      assert s[i..i + |pat|][k] == s[i + k];
    }
  }

  /** A pattern whose first character `s` lacks occurs nowhere in `s`. */
  lemma AbsentByFirstChar(pat: string, s: string)
    requires |pat| > 0 && pat[0] !in s
    ensures Absent(pat, s)
  {
    forall i ensures !OccursAt(pat, s, i) {
      if 0 <= i && i + |pat| <= |s| {
        assert s[i..i + |pat|][0] == s[i] != pat[0];
      }
    }
  }

  /** `$&` names the matched text, so replacing a pattern by `$&` the JavaScript way changes nothing. */
  lemma ReplaceByMatchIsIdentity(s: string, pat: string, i: int)
    requires FirstAt(pat, s, i)
    ensures ReplaceFirstJs(s, pat, "$&") == s
  {
    assert Expand("$&", pat, s[..i], s[i + |pat|..]) == pat;
    assert s[..i] + pat + s[i + |pat|..] == s;
  }

  /** `s.indexOf(pat, from)`: the first occurrence at or after `from`. */
  function IndexOf(s: string, pat: string, from: nat): (r: Option<nat>)
    ensures r.Some? ==> from <= r.value && OccursAt(pat, s, r.value)
    ensures r.Some? ==> forall j :: from <= j < r.value ==> !OccursAt(pat, s, j)
    ensures r.None? ==> forall j :: from <= j ==> !OccursAt(pat, s, j)
    decreases |s| - from
  {
    if from + |pat| > |s| then None
    else if s[from..from + |pat|] == pat then Some(from)
    else IndexOf(s, pat, from + 1)
  }

  lemma FirstIsUnique(pat: string, s: string, i: int, k: int)
    requires FirstAt(pat, s, i) && FirstAt(pat, s, k)
    ensures i == k
  {
  }

  /**
    `s.replace(pat, () => rep)`: the first occurrence of `pat`, if any, is
    replaced by `rep` taken literally.
   */
  function ReplaceFirst(s: string, pat: string, rep: string): (r: string)
    ensures Absent(pat, s) ==> r == s
    ensures forall i :: FirstAt(pat, s, i) ==> r == s[..i] + rep + s[i + |pat|..]
  {
    match IndexOf(s, pat, 0)
    case None => s
    case Some(i) =>
      assert FirstAt(pat, s, i);
      assert forall k :: FirstAt(pat, s, k) ==> k == i by {
        forall k | FirstAt(pat, s, k) ensures k == i { FirstIsUnique(pat, s, i, k); }
      }
      s[..i] + rep + s[i + |pat|..]
  }

  /**
    The replacement text that `String.prototype.replace` actually inserts
    for a string pattern (the GetSubstitution operation of ECMA-262, with
    no capture groups): `$$` is a dollar sign, `$&` the matched text,
    `` $` `` the text before the match, `$'` the text after it; every other
    character, including a `$` that starts none of these, is copied.
   */
  function Expand(rep: string, matched: string, before: string, after: string): (r: string)
    decreases |rep|
  {
    if |rep| == 0 then ""
    else if rep[0] == '$' && |rep| >= 2 && rep[1] == '$' then "$" + Expand(rep[2..], matched, before, after)
    else if rep[0] == '$' && |rep| >= 2 && rep[1] == '&' then matched + Expand(rep[2..], matched, before, after)
    else if rep[0] == '$' && |rep| >= 2 && rep[1] == '`' then before + Expand(rep[2..], matched, before, after)
    else if rep[0] == '$' && |rep| >= 2 && rep[1] == '\'' then after + Expand(rep[2..], matched, before, after)
    else [rep[0]] + Expand(rep[1..], matched, before, after)
  }

  /** Without a dollar sign the replacement text is inserted unchanged. */
  lemma {:induction false} ExpandLiteral(rep: string, matched: string, before: string, after: string)
    requires '$' !in rep
    ensures Expand(rep, matched, before, after) == rep
    decreases |rep|
  {
    if |rep| > 0 {
      assert rep[0] != '$';
      assert rep[1..] + [] == rep[1..];
      assert forall c :: c in rep[1..] ==> c in rep;
      ExpandLiteral(rep[1..], matched, before, after);
      assert [rep[0]] + rep[1..] == rep;
    }
  }

  /** `s.replace(pat, rep)` exactly as JavaScript evaluates it for string arguments. */
  function ReplaceFirstJs(s: string, pat: string, rep: string): (r: string)
    ensures Absent(pat, s) ==> r == s
    ensures forall i :: FirstAt(pat, s, i) ==>
      r == s[..i] + Expand(rep, pat, s[..i], s[i + |pat|..]) + s[i + |pat|..]
  {
    match IndexOf(s, pat, 0)
    case None => s
    case Some(i) =>
      assert FirstAt(pat, s, i);
      assert forall k :: FirstAt(pat, s, k) ==> k == i by {
        forall k | FirstAt(pat, s, k) ensures k == i { FirstIsUnique(pat, s, i, k); }
      }
      s[..i] + Expand(rep, pat, s[..i], s[i + |pat|..]) + s[i + |pat|..]
  }

  /** When the replacement holds no `$`, JavaScript's `replace` is the literal one. */
  lemma ReplaceFirstJsLiteral(s: string, pat: string, rep: string)
    requires '$' !in rep
    ensures ReplaceFirstJs(s, pat, rep) == ReplaceFirst(s, pat, rep)
  {
    match IndexOf(s, pat, 0)
    case None =>
    case Some(i) =>
      assert FirstAt(pat, s, i);
      ExpandLiteral(rep, pat, s[..i], s[i + |pat|..]);
  }

  // ---------------------------------------------------------------------
  // Spans of characters

  /** The length of the longest prefix of `s` whose characters all satisfy `p`. */
  function Span(s: string, p: char -> bool): (n: nat)
    ensures n <= |s|
    ensures forall i :: 0 <= i < n ==> p(s[i])
    ensures n == |s| || !p(s[n])
    decreases |s|
  {
    if |s| == 0 || !p(s[0]) then 0 else 1 + Span(s[1..], p)
  }

  /** A span that stops inside `s` is not affected by what follows `s`. */
  lemma {:induction false} SpanAppend(s: string, t: string, p: char -> bool)
    ensures Span(s + t, p) == if Span(s, p) < |s| then Span(s, p) else |s| + Span(t, p)
    decreases |s|
  {
    if |s| == 0 {
      assert s + t == t;
    } else if p(s[0]) {
      assert (s + t)[1..] == s[1..] + t;
      SpanAppend(s[1..], t, p);
    }
  }

  // ---------------------------------------------------------------------
  // split / join on one separator character

  /** `s.split(sep)` for a one-character separator. */
  function Split(s: string, sep: char): (r: seq<string>)
    ensures |r| >= 1
    decreases |s|
  {
    if |s| == 0 then [""]
    else
      var rest := Split(s[1..], sep);
      if s[0] == sep then [""] + rest
      else [[s[0]] + rest[0]] + rest[1..]
  }

  /** No piece of a split holds the separator. */
  lemma {:induction false} SplitPiecesFree(s: string, sep: char)
    ensures forall k :: 0 <= k < |Split(s, sep)| ==> sep !in Split(s, sep)[k]
    decreases |s|
  {
    if |s| > 0 {
      SplitPiecesFree(s[1..], sep);
      var rest := Split(s[1..], sep);
      if s[0] != sep {
        assert sep !in [s[0]] + rest[0];
      }
    }
  }

  /** `xs.join(sep)` for a one-character separator. */
  function Join(xs: seq<string>, sep: char): string
    decreases |xs|
  {
    if |xs| == 0 then ""
    else if |xs| == 1 then xs[0]
    else xs[0] + [sep] + Join(xs[1..], sep)
  }

  /** Joining a first piece onto at least one more puts the separator between them. */
  lemma JoinCons(x: string, xs: seq<string>, sep: char)
    requires |xs| >= 1
    ensures Join([x] + xs, sep) == x + [sep] + Join(xs, sep)
  {
    assert ([x] + xs)[1..] == xs;
  }

  /** Splitting and joining again gives back the original text. */
  lemma {:induction false} JoinSplit(s: string, sep: char)
    ensures Join(Split(s, sep), sep) == s
    decreases |s|
  {
    if |s| > 0 {
      var rest := Split(s[1..], sep);
      JoinSplit(s[1..], sep);
      if s[0] == sep {
        assert Split(s, sep) == [""] + rest;
        assert ([""] + rest)[1..] == rest;
        assert s == [sep] + s[1..];
      } else {
        var r := Split(s, sep);
        assert r == [[s[0]] + rest[0]] + rest[1..];
        if |rest| == 1 {
          assert s == [s[0]] + s[1..];
        } else {
          assert r[1..] == rest[1..];
          assert Join(rest, sep) == rest[0] + [sep] + Join(rest[1..], sep);
          assert s == [s[0]] + s[1..];
        }
      }
    }
  }

  /** Joining separator-free pieces and splitting again gives back the pieces. */
  lemma {:induction false} SplitJoin(xs: seq<string>, sep: char)
    requires |xs| >= 1
    requires forall k :: 0 <= k < |xs| ==> sep !in xs[k]
    ensures Split(Join(xs, sep), sep) == xs
    decreases |xs|, |xs[0]|
  {
    if |xs[0]| == 0 {
      if |xs| > 1 {
        assert Join(xs, sep) == [sep] + Join(xs[1..], sep);
        assert Join(xs, sep)[1..] == Join(xs[1..], sep);
        SplitJoin(xs[1..], sep);
        assert [""] + xs[1..] == xs;
      }
    } else {
      var c := xs[0][0];
      var ys := [xs[0][1..]] + xs[1..];
      assert c in xs[0];
      assert forall k :: 0 <= k < |ys| ==> sep !in ys[k] by {
        forall k | 0 <= k < |ys| ensures sep !in ys[k] {
          if k == 0 {
            assert forall d :: d in xs[0][1..] ==> d in xs[0];
          } else {
            assert ys[k] == xs[k];
          }
        }
      }
      assert ys[1..] == xs[1..];
      if |xs| == 1 {
        assert Join(xs, sep) == [c] + Join(ys, sep);
      } else {
        assert Join(xs, sep) == xs[0] + [sep] + Join(xs[1..], sep);
        assert Join(ys, sep) == xs[0][1..] + [sep] + Join(xs[1..], sep);
        assert xs[0] == [c] + xs[0][1..];
        assert Join(xs, sep) == [c] + Join(ys, sep);
      }
      SplitJoin(ys, sep);
      assert ([c] + Join(ys, sep))[1..] == Join(ys, sep);
      assert xs == [[c] + ys[0]] + ys[1..];
    }
  }

  /** Text without the separator is a single piece. */
  lemma {:induction false} SplitNoSeparator(s: string, sep: char)
    requires sep !in s
    ensures Split(s, sep) == [s]
    decreases |s|
  {
    if |s| > 0 {
      assert forall c :: c in s[1..] ==> c in s;
      SplitNoSeparator(s[1..], sep);
      assert [s[0]] + s[1..] == s;
    }
  }

  /** How a split sees its first character. */
  lemma SplitCons(c: char, t: string, sep: char)
    ensures Split([c] + t, sep) == if c == sep then [""] + Split(t, sep)
                                   else [[c] + Split(t, sep)[0]] + Split(t, sep)[1..]
  {
    assert ([c] + t)[1..] == t;
  }

  /** Gluing a prefix onto the first piece commutes with appending more pieces. */
  lemma GlueFirst(x: string, r: seq<string>, more: seq<string>)
    requires |r| >= 1
    ensures [x + (r + more)[0]] + (r + more)[1..] == ([x + r[0]] + r[1..]) + more
  {
    assert (r + more)[1..] == r[1..] + more;
  }

  /** Text joined at a separator splits into the pieces of each side. */
  lemma {:induction false} SplitAppend(a: string, b: string, sep: char)
    ensures Split(a + [sep] + b, sep) == Split(a, sep) + Split(b, sep)
    decreases |a|
  {
    if |a| == 0 {
      assert a + [sep] + b == [sep] + b;
      SplitCons(sep, b, sep);
    } else {
      var t := a[1..] + [sep] + b;
      assert a + [sep] + b == [a[0]] + t;
      assert a == [a[0]] + a[1..];
      SplitCons(a[0], t, sep);
      SplitCons(a[0], a[1..], sep);
      SplitAppend(a[1..], b, sep);
      var rest := Split(a[1..], sep);
      if a[0] == sep {
        assert [""] + (rest + Split(b, sep)) == ([""] + rest) + Split(b, sep);
      } else {
        GlueFirst([a[0]], rest, Split(b, sep));
      }
    }
  }

  // ---------------------------------------------------------------------
  // trim

  /**
    The characters `String.prototype.trim` removes: the WhiteSpace and
    LineTerminator code points of ECMA-262.
   */
  const WhiteSpaceChars: set<char> := {
    '\t', '\n', '\U{000B}', '\U{000C}', '\r', ' ', '\U{00A0}', '\U{1680}',
    '\U{2000}', '\U{2001}', '\U{2002}', '\U{2003}', '\U{2004}', '\U{2005}',
    '\U{2006}', '\U{2007}', '\U{2008}', '\U{2009}', '\U{200A}',
    '\U{2028}', '\U{2029}', '\U{202F}', '\U{205F}', '\U{3000}', '\U{FEFF}'
  }

  predicate IsWhiteSpace(c: char) {
    c in WhiteSpaceChars
  }

  predicate AllWhiteSpace(s: string) {
    forall i :: 0 <= i < |s| ==> IsWhiteSpace(s[i])
  }

  /** Neither end of `s` is white space. */
  predicate Bare(s: string) {
    |s| == 0 || (!IsWhiteSpace(s[0]) && !IsWhiteSpace(s[|s| - 1]))
  }

  /** The number of white-space characters at the start of `s`. */
  function LeadingSpace(s: string): (n: nat)
    ensures n <= |s|
    ensures forall i :: 0 <= i < n ==> IsWhiteSpace(s[i])
    ensures n == |s| || !IsWhiteSpace(s[n])
    decreases |s|
  {
    if |s| == 0 || !IsWhiteSpace(s[0]) then 0 else 1 + LeadingSpace(s[1..])
  }

  /** The number of white-space characters at the end of `s`. */
  function TrailingSpace(s: string): (n: nat)
    ensures n <= |s|
    ensures forall i :: |s| - n <= i < |s| ==> IsWhiteSpace(s[i])
    ensures n == |s| || !IsWhiteSpace(s[|s| - n - 1])
    decreases |s|
  {
    if |s| == 0 || !IsWhiteSpace(s[|s| - 1]) then 0 else 1 + TrailingSpace(s[..|s| - 1])
  }

  /** `r` is a bare stretch of `s` with nothing but white space around it. */
  predicate Trimmed(s: string, r: string) {
    && Bare(r)
    && exists lo :: 0 <= lo && lo + |r| <= |s| && s[lo..lo + |r|] == r
                    && AllWhiteSpace(s[..lo]) && AllWhiteSpace(s[lo + |r|..])
  }

  /**
    `s.trim()`: the text left after removing leading and trailing white
    space; it is `s` with white space around it and no white space at
    either of its ends.
   */
  function Trim(s: string): (r: string)
    ensures Bare(r)
    ensures |r| <= |s|
    ensures exists lo :: 0 <= lo && lo + |r| <= |s| && s[lo..lo + |r|] == r
                         && AllWhiteSpace(s[..lo]) && AllWhiteSpace(s[lo + |r|..])
  {
    var lo := LeadingSpace(s);
    TrimParts(s);
    if lo == |s| then "" else s[lo..|s| - TrailingSpace(s)]
  }

  /** The trim of `s` is a bare stretch of it with white space around it. */
  lemma TrimIsTrimmed(s: string)
    ensures Trimmed(s, Trim(s))
  {
  }

  /** The pieces `Trim` cuts `s` into: white space, bare text, white space. */
  lemma TrimParts(s: string)
    ensures var lo := LeadingSpace(s);
      var r := if lo == |s| then "" else s[lo..|s| - TrailingSpace(s)];
      && lo + |r| <= |s| && s[lo..lo + |r|] == r
      && Bare(r) && AllWhiteSpace(s[..lo]) && AllWhiteSpace(s[lo + |r|..])
  {
    var lo := LeadingSpace(s);
    var t := TrailingSpace(s);
    AllWhiteSpacePrefix(s, lo);
    if lo == |s| {
      assert s[lo..lo] == "";
      AllWhiteSpaceSuffix(s, lo);
    } else {
      assert lo < |s| - t;
      var hi := |s| - t;
      var r := s[lo..hi];
      assert r[0] == s[lo];
      assert r[|r| - 1] == s[hi - 1];
      AllWhiteSpaceSuffix(s, hi);
    }
  }

  lemma AllWhiteSpacePrefix(s: string, n: nat)
    requires n <= |s| && forall i :: 0 <= i < n ==> IsWhiteSpace(s[i])
    ensures AllWhiteSpace(s[..n])
  {
    assert forall i :: 0 <= i < n ==> s[..n][i] == s[i];
  }

  lemma AllWhiteSpaceSuffix(s: string, n: nat)
    requires n <= |s| && forall i :: n <= i < |s| ==> IsWhiteSpace(s[i])
    ensures AllWhiteSpace(s[n..])
  {
    assert forall i :: 0 <= i < |s| - n ==> s[n..][i] == s[n + i];
  }

  /** The leading white space is exactly `n` characters when `s[n]` ends it. */
  lemma LeadingSpaceAt(s: string, n: nat)
    requires n <= |s| && forall i :: 0 <= i < n ==> IsWhiteSpace(s[i])
    requires n == |s| || !IsWhiteSpace(s[n])
    ensures LeadingSpace(s) == n
  {
  }

  /** The trailing white space is exactly `n` characters when `s[|s| - n - 1]` ends it. */
  lemma TrailingSpaceAt(s: string, n: nat)
    requires n <= |s| && forall i :: |s| - n <= i < |s| ==> IsWhiteSpace(s[i])
    requires n == |s| || !IsWhiteSpace(s[|s| - n - 1])
    ensures TrailingSpace(s) == n
  {
  }

  /** Any bare text with only white space around it in `s` is the trim of `s`. */
  lemma TrimUnique(s: string, lo: nat, r: string)
    requires lo + |r| <= |s| && s[lo..lo + |r|] == r
    requires AllWhiteSpace(s[..lo]) && AllWhiteSpace(s[lo + |r|..])
    requires Bare(r)
    ensures Trim(s) == r
  {
    forall i | 0 <= i < lo ensures IsWhiteSpace(s[i]) {
      assert s[..lo][i] == s[i];
    }
    forall i | lo + |r| <= i < |s| ensures IsWhiteSpace(s[i]) {
      assert s[lo + |r|..][i - lo - |r|] == s[i];
    }
    if |r| == 0 {
      LeadingSpaceAt(s, |s|);
    } else {
      assert s[lo] == r[0];
      assert s[lo + |r| - 1] == r[|r| - 1];
      LeadingSpaceAt(s, lo);
      TrailingSpaceAt(s, |s| - lo - |r|);
    }
  }

  /** Trimming twice is trimming once. */
  lemma TrimIdempotent(s: string)
    ensures Trim(Trim(s)) == Trim(s)
  {
    var r := Trim(s);
    assert r[0..|r|] == r;
    assert r[..0] == [];
    assert r[|r|..] == [];
    TrimUnique(r, 0, r);
  }

  // ---------------------------------------------------------------------
  // decimal numbers

  predicate IsDigit(c: char) {
    '0' <= c <= '9'
  }

  function DigitChar(d: nat): (c: char)
    requires d < 10
    ensures IsDigit(c)
  {
    ['0', '1', '2', '3', '4', '5', '6', '7', '8', '9'][d]
  }

  /** `String(n)` for a non-negative integer. */
  function Decimal(n: nat): (r: string)
    ensures |r| >= 1
    ensures forall i :: 0 <= i < |r| ==> IsDigit(r[i])
    decreases n
  {
    if n < 10 then [DigitChar(n)] else Decimal(n / 10) + [DigitChar(n % 10)]
  }

  /** The value a string of decimal digits denotes. */
  function DecimalValue(s: string): nat
    decreases |s|
  {
    if |s| == 0 then 0
    else 10 * DecimalValue(s[..|s| - 1]) + (if IsDigit(s[|s| - 1]) then (s[|s| - 1] - '0') as nat else 0)
  }

  /** The rendering of a number reads back as that number. */
  lemma {:induction false} DecimalRoundTrip(n: nat)
    ensures DecimalValue(Decimal(n)) == n
    decreases n
  {
    if n >= 10 {
      DecimalRoundTrip(n / 10);
      var s := Decimal(n);
      assert s[..|s| - 1] == Decimal(n / 10);
    }
  }
}
